=== FILE: README.md ===
# z1-home lead intake, modelled in Dafny

z1-home is a marketing site. Its behaviour lives in four small places, each
modelled here as pure functions over immutable data:

- the `POST /api/access-request` handler (`AccessRequest`): it reports every
  missing required field at once, normalises the polymorphic `specialties`
  field, maps the payload onto the stored record, hands it to the store and
  answers 400, 201 or 500;
- language handling (`I18n`): `normalizeLang`, `supportedLangs` and `getDict`;
- the edge middleware (`Middleware`), which writes a `country` cookie once from
  the geolocation header;
- the lead-capture form shared by the home page and the request-analysis
  call-to-action (`IntakeForm`), a small event-driven state machine, and the
  home page's language detection from the cookie string and the browser
  language (`LanguageDetection`).

Supporting modules model the JavaScript built-ins these rely on: `Text` (trim
over the ECMAScript whitespace set, split, join, startsWith, ASCII lower-case,
decimal rendering of integers), `Seqs` (filter), `JsonValues` (parsed JSON with
truthiness, optional member access, `Object.keys` and `String()`), and
`Wrappers` (`Option`). `Pipeline` connects the form to the handler.

The store (Prisma's `create`) is a function parameter: a run either stores a
row or fails with a message, and "no create is attempted" is stated as "the
answer does not depend on the store". JSON-parse failures and create failures
both reach the handler's single catch block, so both are answered with 500.

Three behaviours of the code as written are worth knowing:

- The form posts only `name`, `email`, `phone` and `specialties`, while the
  handler requires `company`, `role`, `clinicSize`, `currentSystem`, `budget`
  and `timeline` too. Every form submission is therefore answered 400, and the
  form shows its failure alert with the draft kept
  (`Pipeline.FormSubmissionAlwaysRejected`, `Pipeline.SubmissionRoundTrip`).
  The handler and the form belong to two schema revisions; the model follows
  the code and does not guess which one is intended.
- The middleware tests the existing cookie for truthiness, so an existing but
  empty `country` cookie is overwritten.
- The handler converts array entries of `specialties` with `String()`, which
  throws for an object that has its own `toString` member (a parsed value is
  never callable); the catch block then answers 500 and nothing is stored
  (`AccessRequest.UnconvertibleSpecialtyFails`).

The handler's code has no first/last-name split and no "N/A" fallbacks, and it
requires all eight fields; the model follows that code.

## Model

| member | source | states |
|---|---|---|
| `Text.Trim` | src/app/api/access-request/route.ts:34 | the trimmed text has no leading or trailing whitespace |
| `Text.TrimBounds` | src/app/api/access-request/route.ts:38 | trim returns a contiguous infix of its input with only whitespace cut off either side, and is empty exactly for all-whitespace text |
| `Text.TrimIdempotent` | src/app/api/access-request/route.ts:38 | trimming twice is trimming once |
| `Text.Split` | src/app/api/access-request/route.ts:37 | split always yields at least one piece, the first being a prefix of the input |
| `Text.JoinSplit` | src/app/api/access-request/route.ts:37 | joining the pieces of a split with the separator gives the input back |
| `Text.SplitPiecesAvoidSeparator` | src/app/api/access-request/route.ts:37 | no piece of a split contains the separator |
| `Text.SplitJoinSingle` | src/app/api/access-request/route.ts:36-37 | splitting a join of separator-free texts on a one-character separator gives the texts back |
| `Text.SplitAfterSegment` | src/app/page.tsx:80 | a separator-free head followed by the separator splits off as the first piece |
| `Text.SplitConcat` | src/app/api/access-request/route.ts:37 | splitting `a` + separator + `b` on a one-character separator gives the pieces of `a` followed by the pieces of `b` |
| `Text.Join` | src/app/api/access-request/route.ts:34 | joining nothing gives ""; the first part starts the result; every character of a part is in the result, and every character of the result comes from a part or the separator |
| `Text.StartsWith` | src/app/page.tsx:80 | true exactly when the prefix is no longer than the text and agrees with it character by character |
| `Text.ToLowerAscii` | src/lib/i18n.ts:7 | same length; capitals A-Z become their lower-case letters, every other character is kept, and no capital remains |
| `Text.NatToDecimal` | src/app/api/access-request/route.ts:34 | String() of an integer-valued number is a decimal numeral without leading zeros |
| `Text.DecimalRoundTrip` | src/app/api/access-request/route.ts:34 | reading back the decimal rendering of a number gives the number |
| `Text.NatToDecimalInjective` | src/app/api/access-request/route.ts:34 | different numbers render differently |
| `Seqs.Filter` | src/app/api/access-request/route.ts:18 | filter keeps exactly the elements satisfying the predicate, never more than the input |
| `Seqs.FilterConcat` | src/app/api/access-request/route.ts:34 | filtering a concatenation is concatenating the filtered parts |
| `Seqs.FilterKeepsAll` | src/app/api/access-request/route.ts:39 | filtering with a predicate every element satisfies changes nothing |
| `Seqs.FilterKeepsOrder` | src/app/api/access-request/route.ts:18 | filter preserves the relative order of the elements it keeps |
| `JsonValues.FalsyValues` | src/app/api/access-request/route.ts:18 | `Truthy` fails for exactly four JSON values: null, false, 0 and "" |
| `JsonValues.Get` | src/app/api/access-request/route.ts:18 | `data?.[f]` on anything but an object is undefined |
| `JsonValues.GetLastMember` | src/app/api/access-request/route.ts:18 | on an object, a member read is undefined exactly when no member has the name, and otherwise is the value of the last member with it |
| `JsonValues.ToStr` | src/app/api/access-request/route.ts:34 | String() throws exactly for an object with its own `toString` member or an array holding one at any depth; a text renders as itself, any other object as "[object Object]" |
| `JsonValues.Lookup` | src/app/api/access-request/route.ts:18 | member access finds a value exactly when a member of that name exists, and then it is the last such member's value |
| `JsonValues.Keys` | src/app/api/access-request/route.ts:25 | the object's member names, each exactly once |
| `JsonValues.ReceivedKeys` | src/app/api/access-request/route.ts:25 | Object.keys(data or {}) is empty for a falsy body, names exactly the members of an object, and repeats no key |
| `JsonValues.IndexNamesDistinct` | src/app/api/access-request/route.ts:25 | the index keys of a string or array are all different |
| `AccessRequest.StatusCode` | src/app/api/access-request/route.ts:27 | 400 exactly for a rejection, 201 exactly for a creation, 500 exactly for a failure |
| `AccessRequest.ResponseBody` | src/app/api/access-request/route.ts:21-28 | the 400 body carries "Missing required fields", the missing fields and the received keys; the 500 body "Failed to create access request" and the failure's message; the 201 body is the stored row |
| `AccessRequest.MissingFields` | src/app/api/access-request/route.ts:17-18 | a name is reported exactly when it is required and its value is absent or falsy, in the fixed order of the required list |
| `AccessRequest.RequiredFieldsRanked` | src/app/api/access-request/route.ts:17 | the required names are distinct and ranked by their position |
| `AccessRequest.RequiredPresent` | src/app/api/access-request/route.ts:18-19 | a body that passes validation has each of the eight required members truthy |
| `AccessRequest.ValidIffAllPresent` | src/app/api/access-request/route.ts:18-19 | nothing is reported missing exactly when every required member is truthy (Valid), and then the body is an object |
| `AccessRequest.TrimmedNonEmpty` | src/app/api/access-request/route.ts:38-39 | the result is no longer than the input and holds only non-empty trimmed texts |
| `AccessRequest.TrimmedNonEmptySources` | src/app/api/access-request/route.ts:38-39 | every kept text is the trim of some input element |
| `AccessRequest.TrimmedNonEmptyKeeps` | src/app/api/access-request/route.ts:38-39 | every input element whose trim is non-empty is kept |
| `AccessRequest.TrimAllConcat` | src/app/api/access-request/route.ts:38 | trimming a concatenation trims each part |
| `AccessRequest.TrimAllTrimmed` | src/app/api/access-request/route.ts:38 | trimming texts that are already trimmed changes nothing |
| `AccessRequest.TrimmedNonEmptyConcat` | src/app/api/access-request/route.ts:38-39 | trimming and dropping empties of a concatenation is doing it to each part |
| `AccessRequest.Rendered` | src/app/api/access-request/route.ts:34 | the rendering fails exactly when some element is unconvertible; otherwise it has one text per element, each that element's String() |
| `AccessRequest.RenderedConcat` | src/app/api/access-request/route.ts:34 | rendering a concatenation concatenates the renderings, and fails when either part fails |
| `AccessRequest.NormalizeSpecialties` | src/app/api/access-request/route.ts:31-42 | fails exactly for an array with an unconvertible element; otherwise every entry is a non-empty trimmed text, an array never grows, a string always succeeds with comma-free entries, and any other value (or none) gives the empty list |
| `AccessRequest.TrimmedHasNoComma` | src/app/api/access-request/route.ts:36-38 | trimming a comma-free segment cannot produce a comma |
| `AccessRequest.SpecialtiesArrayConcat` | src/app/api/access-request/route.ts:34 | normalising an array works element by element and keeps the order: the normalisation of a concatenation is the concatenation of normalisations, and fails when either part fails |
| `AccessRequest.SpecialtiesSingleElement` | src/app/api/access-request/route.ts:34 | one element fails when its String() throws, and otherwise gives its trimmed String() if that is non-empty, nothing if it is empty |
| `AccessRequest.SpecialtiesArrayFixedPoint` | src/app/api/access-request/route.ts:32-34 | an array of non-empty trimmed texts is normalised to itself |
| `AccessRequest.SpecialtiesTextConcat` | src/app/api/access-request/route.ts:35-39 | the normalisation of the text `a,b` is the normalisation of `a` followed by that of `b` |
| `AccessRequest.SpecialtiesTextSegment` | src/app/api/access-request/route.ts:35-39 | a comma-free text gives its trim as the one entry, or nothing when the trim is empty |
| `AccessRequest.SpecialtiesTextRoundTrip` | src/app/api/access-request/route.ts:35-39 | comma-joining non-empty trimmed comma-free texts and normalising gives the texts back |
| `AccessRequest.SpecialtiesExample` | src/app/api/access-request/route.ts:35-39 | "a, b ,,c" normalises to ["a", "b", "c"] |
| `AccessRequest.LogPreview` | src/app/api/access-request/route.ts:13 | a message of at most 200 characters is logged whole; a longer one is cut to its first 200 characters followed by the ellipsis, and only then |
| `AccessRequest.LogPreviewIdempotent` | src/app/api/access-request/route.ts:13 | previewing a preview changes nothing |
| `AccessRequest.LoggedMessage` | src/app/api/access-request/route.ts:10-14 | a logged text message is at most PreviewLimit + 1 characters and starts with the message's first PreviewLimit characters; a text of at most PreviewLimit characters is logged unchanged; any other value is logged as it is |
| `AccessRequest.BuildRecord` | src/app/api/access-request/route.ts:31-57 | no record exactly when the specialties are an unconvertible array; otherwise the record is complete, copies each required member, carries the normalised specialties, and the message when truthy, null otherwise |
| `AccessRequest.Store` | src/app/api/access-request/route.ts:31-79 | after validation: unconvertible specialties give 500 with the TypeError's message; otherwise the store's row gives 201 and its failure 500 with the failure's message; never 400 |
| `AccessRequest.Post` | src/app/api/access-request/route.ts:6-81 | 400 exactly when the parsed body is not Valid, with the missing fields and received keys; a valid body with unconvertible specialties gives 500 with the TypeError's message; otherwise the built record goes to the store and its row gives 201, its failure 500 with the message; an unparsable body gives 500 |
| `AccessRequest.UnconvertibleSpecialtyFails` | src/app/api/access-request/route.ts:34 | a valid body whose specialties are `[{"toString": 1}]` is answered 500 with the TypeError's message |
| `AccessRequest.RejectionNeverStores` | src/app/api/access-request/route.ts:19-29 | a rejected body's answer is the same whatever the store does |
| `AccessRequest.CreatedMeansStored` | src/app/api/access-request/route.ts:45-60 | a 201 answer carries the row the store produced from a complete record of a valid body whose specialties converted |
| `I18n.NormalizeLang` | src/lib/i18n.ts:5-10 | missing or empty input gives English; Portuguese exactly for input starting with "pt" in any case; the result is a supported language |
| `I18n.CodeRoundTrip` | src/lib/i18n.ts:1-10 | normalising a language's own code gives that language |
| `I18n.NormalizeLangIdempotent` | src/lib/i18n.ts:5-10 | normalising a normalised language again changes nothing |
| `I18n.NormalizeLangIgnoresCase` | src/lib/i18n.ts:7 | lower-casing the input first makes no difference |
| `I18n.NormalizeLangExamples` | src/lib/i18n.ts:5-10 | "pt-BR" and "PT" give Portuguese; "en-US" and "p" give English |
| `I18n.GetDict` | src/lib/i18n.ts:135-137 | the table returned is the requested language's entry |
| `I18n.GetDictTotalAndDistinct` | src/lib/i18n.ts:133-137 | every supported language has a table, and distinct languages get distinct tables |
| `Middleware.HandlePageRequest` | middleware.ts:5-22 | a cookie is written exactly when the existing cookie is missing or empty and the header is non-empty; it is `country` = header value, path "/", max-age 604800, SameSite=Lax; the request otherwise passes through |
| `Middleware.ExistingCookieKept` | middleware.ts:11-12 | a non-empty existing cookie is never overwritten |
| `Middleware.MissingHeaderWritesNothing` | middleware.ts:9 | without the geolocation header nothing is written |
| `LanguageDetection.FirstWithPrefix` | src/app/page.tsx:80 | the position of the first entry with the prefix, or none exactly when no entry has it |
| `LanguageDetection.CookieCountry` | src/app/page.tsx:77-80 | no country exactly when no "; "-separated entry starts with "country="; otherwise the text between the first and second '=' of the first such entry |
| `LanguageDetection.SegmentAfterName` | src/app/page.tsx:80 | splitting a "country=" entry at '=' yields the value as the second piece |
| `LanguageDetection.DetectLang` | src/app/page.tsx:81-83 | Portuguese exactly when the cookie country is "BR" or the browser language normalises to Portuguese |
| `LanguageDetection.BrazilCookieWins` | src/app/page.tsx:77-83 | the cookie "country=BR" gives Portuguese whatever the browser language |
| `LanguageDetection.NoCookieFollowsBrowser` | src/app/page.tsx:77-83 | with an empty cookie string the browser language alone decides |
| `LanguageDetection.DetectLanguage` | src/app/page.tsx:75-87 | an exception gives English; otherwise as DetectLang; always a supported language |
| `IntakeForm.Step` | src/app/page.tsx:250-282 | edits change one draft field; selecting sets specialties to [value]; a submit while busy is a no-op; a submit from idle sets busy and sends the draft; success resets the draft, closes the request dialog, opens the success dialog and tracks a lead; a success whose pixel call throws resets the draft and closes the request dialog but alerts instead and leaves the success dialog as it was; failure keeps everything and alerts; busy is false after any answer; the dialog toggles set their flag and nothing else; the redirect timer is armed exactly as the success dialog opens and cleared exactly as it closes |
| `IntakeForm.StepSends` | src/app/page.tsx:251-252 | one event sends one request exactly when it is a submit from an idle form |
| `IntakeForm.AtMostOneRequestInFlight` | src/components/request-analysis-modal.tsx:126-153 | over any run, requests sent never exceed answers received plus one |
| `IntakeForm.DoubleSubmitSendsOnce` | src/components/request-analysis-modal.tsx:127-128 | two submits in a row send one request |
| `IntakeForm.FailedSubmissionKeepsDraft` | src/components/request-analysis-modal.tsx:148-152 | submit then failure leaves the state exactly as before |
| `IntakeForm.PixelFailureLosesDraft` | src/app/page.tsx:266-279 | submit then a 2xx answer whose pixel call throws: the request is sent, the draft is cleared and the request dialog closed, and only the failure alert follows |
| `IntakeForm.SelectOfferedIndustry` | src/components/request-analysis-modal.tsx:104-118 | choosing an offered industry makes it the draft's only specialty |
| `IntakeForm.SuccessfulSubmissionResets` | src/components/request-analysis-modal.tsx:142-147 | submit then success gives an empty draft, request dialog closed, success dialog open, idle |
| `Pipeline.DraftJson` | src/app/page.tsx:259 | the posted body has exactly the members name, email, phone and specialties, with the draft's values |
| `Pipeline.Answer` | src/app/page.tsx:262-276 | the form treats exactly the handler's 201 creation as success (split by whether the pixel call throws); a 400 rejection or a 500 failure is a failure |
| `Pipeline.DraftKeys` | src/app/api/access-request/route.ts:25 | the handler receives the keys name, email, phone, specialties, in that order |
| `Pipeline.DraftMissing` | src/app/api/access-request/route.ts:17-18 | a form body always misses company, role, clinicSize, currentSystem, budget and timeline; name and email exactly when empty; never phone |
| `Pipeline.FormSubmissionAlwaysRejected` | src/app/api/access-request/route.ts:19-29 | every form submission is answered 400 with its missing fields and its four keys, whatever the store does |
| `Pipeline.FormSubmissionFails` | src/app/page.tsx:262-263 | the form reads the answer to its own submission as a failure |
| `Pipeline.FailureRestores` | src/app/page.tsx:277-281 | a failed answer to an accepted submit restores the prior state with one alert |
| `Pipeline.OfferedIndustryKept` | src/app/api/access-request/route.ts:32-57 | the handler's specialties normalisation keeps every offered industry unchanged, so the record built from a body that passes validation and carries one has exactly that industry as its specialties (no form body passes validation: `Pipeline.FormSubmissionAlwaysRejected`) |
| `Pipeline.SubmissionRoundTrip` | src/app/page.tsx:250-282 | from an idle form, a click sends the draft and the answer brings the form back exactly as it was with one alert |

## Left out

- Prisma and its module-level client: the store is the `create` parameter of `AccessRequest.Post`; the branch on Prisma's known-error class only changes what is logged.
- `console` logging: only the message preview it computes is modelled.
- `JsonValues.ToStr`: numbers are exact integers, while JSON.parse yields doubles: an integer beyond 2^53 is rounded (9007199254740993 arrives as 9007199254740992) and String() renders the rounded value, or exponent notation from 10^21 on; fractions, exponents, NaN and infinities are not modelled.
- `Text.NatToDecimal`: renders the exact integer; it agrees with String() only for integers a double holds exactly (up to 2^53 in magnitude, and below 10^21).
- The TypeError message String() throws is the V8 engine's wording ("Cannot convert object to primitive value"); other engines word it differently.
- `AccessRequest.LogPreview`: text is a sequence of code points, while `substring(0, 200)` and `length` count UTF-16 code units, so a message with characters outside the Basic Multilingual Plane is cut at a different place (and possibly inside a surrogate pair) than the model says.
- `AccessRequest.LoggedMessage`: its bounds count code points as `AccessRequest.LogPreview` does; a message of 150 characters outside the Basic Multilingual Plane is 300 UTF-16 units long, so the handler cuts it and appends the ellipsis while the model logs it unchanged.
- `Text.ToLowerAscii`: lower-cases ASCII letters only, because `normalizeLang` only compares the result with "pt"; non-ASCII case mappings (for example the Kelvin sign) are not modelled.
- `JsonValues.ReceivedKeys`: lists object member names in order of first appearance; JavaScript lists integer-like names first in numeric order, which is not modelled. For a string body it lists one index per code point, while `Object.keys` lists one per UTF-16 code unit (`Object.keys("😀")` is `["0", "1"]`, the model gives `["0"]`).
- `JsonValues.Get`: member access ignores inherited and special properties (`length`, prototype names), none of which are required field names.
- `fetch`, JSON serialisation on the wire, React rendering and state batching (the in-flight guard reads the rendered `isSubmitting`, so two clicks inside one render are not modelled), the 300 ms `setTimeout` and `window.location` navigation: the model keeps their order as effects and leaves out timing.
- The Facebook Pixel call is the `TrackLead` effect when it returns and the `ResponseOkPixelThrew` event when it throws; whether the pixel is loaded is not modelled.
- The alert text and the disabled button styling are presentation.
- The industry picker's displayed selection is not part of the draft and is not modelled; `IntakeForm.Industries` lists its values (`IntakeForm.SelectOfferedIndustry`, `Pipeline.OfferedIndustryKept`).
- `I18n.Dict`: only the navigation labels and the request-form labels of each table are modelled; the page copy, blog index and other strings are static text.
- The middleware `matcher` pattern is routing configuration.
- Blog pages, the Brazil landing page and the analytics components are static content or third-party scripts.

=== FILE: access_request.dfy ===
/** The `POST /api/access-request` handler: report every missing required field
    at once, normalise `specialties`, map the payload onto the stored record,
    hand it to the store, and answer 400, 201 or 500. */
module AccessRequest {
  import opened Wrappers
  import opened Text
  import opened Seqs
  import opened JsonValues

  /** The fields a request must carry, in the order they are reported. */
  const RequiredFields: seq<string> :=
    ["name", "email", "company", "role", "clinicSize", "currentSystem", "budget", "timeline"]

  const MissingFieldsLabel: string := "Missing required fields"
  const CreateFailedLabel: string := "Failed to create access request"

  /** The message of the TypeError String() throws for an object it cannot
      turn into text (as the V8 engine words it). */
  const ConversionErrorMessage: string := "Cannot convert object to primitive value"

  /** Longest message text written to the log before it is cut. */
  const PreviewLimit: nat := 200
  const Ellipsis: char := '\U{2026}'

  /** The request body: what JSON.parse produced, or the reason it threw. */
  datatype Body = Parsed(data: Json) | Unparsable(reason: string)

  /** What the store's create operation answers: the stored row, or the
      message of the error it threw. */
  datatype CreateOutcome = Stored(row: Json) | CreateError(message: string)

  /** The record handed to the store. */
  datatype AccessRequestData = AccessRequestData(
    name: Json,
    email: Json,
    company: Json,
    role: Json,
    clinicSize: Json,
    specialties: seq<string>,
    currentSystem: Json,
    budget: Json,
    timeline: Json,
    message: Json)

  datatype Response =
    | Rejected(missingFields: seq<string>, receivedKeys: seq<string>)
    | Created(row: Json)
    | Failed(message: string)

  /** The HTTP status of a response. */
  function StatusCode(r: Response): (code: int)
    ensures code == 400 <==> r.Rejected?
    ensures code == 201 <==> r.Created?
    ensures code == 500 <==> r.Failed?
  {
    match r
    case Rejected(_, _) => 400
    case Created(_) => 201
    case Failed(_) => 500
  }

  /** The JSON body sent back to the client. */
  function ResponseBody(r: Response): (p: Json)
    ensures r.Rejected? ==> Get(p, "error") == Some(JStr(MissingFieldsLabel))
                            && Get(p, "missingFields") == Some(StrArray(r.missingFields))
                            && Get(p, "receivedKeys") == Some(StrArray(r.receivedKeys))
    ensures r.Failed? ==> Get(p, "error") == Some(JStr(CreateFailedLabel))
                          && Get(p, "message") == Some(JStr(r.message))
    ensures r.Created? ==> p == r.row
  {
    match r
    case Rejected(missing, received) =>
      var m := [("error", JStr(MissingFieldsLabel)),
                ("missingFields", StrArray(missing)),
                ("receivedKeys", StrArray(received))];
      assert m[..2] == [m[0], m[1]] && m[..2][..1] == [m[0]];
      assert Lookup(m[..2], "missingFields") == Some(StrArray(missing));
      assert Lookup(m[..2][..1], "error") == Some(JStr(MissingFieldsLabel));
      JObj(m)
    case Created(row) => row
    case Failed(message) =>
      var m := [("error", JStr(CreateFailedLabel)), ("message", JStr(message))];
      assert m[..1] == [m[0]];
      assert Lookup(m[..1], "error") == Some(JStr(CreateFailedLabel));
      JObj(m)
  }

  /** Rank of a required field in the reporting order (unlisted names last). */
  function FieldRank(f: string): int {
    if f in RequiredFields then IndexOf(RequiredFields, f) else |RequiredFields|
  }

  /** The required fields whose value is absent or falsy, each once, in the
      fixed order of RequiredFields. */
  function MissingFields(data: Json): (r: seq<string>)
    ensures forall f :: f in r <==> f in RequiredFields && !Present(Get(data, f))
    ensures forall i, j :: 0 <= i < j < |r| ==> FieldRank(r[i]) < FieldRank(r[j])
  {
    var missing := (f: string) => !Present(Get(data, f));
    RequiredFieldsRanked();
    FilterKeepsOrder(RequiredFields, missing, FieldRank);
    Filter(RequiredFields, missing)
  }

  lemma RequiredFieldsRanked()
    ensures forall i, j :: 0 <= i < j < |RequiredFields| ==> FieldRank(RequiredFields[i]) < FieldRank(RequiredFields[j])
  {
    forall i | 0 <= i < |RequiredFields|
      ensures FieldRank(RequiredFields[i]) == i
    {
      assert forall j :: 0 <= j < |RequiredFields| && j != i ==> RequiredFields[j] != RequiredFields[i];
    }
  }

  /** A body that passes validation: every required member is truthy. */
  predicate Valid(data: Json) {
    forall f :: f in RequiredFields ==> Present(Get(data, f))
  }

  /** Each required member of a validated body is truthy. */
  lemma RequiredPresent(data: Json)
    requires Valid(data)
    ensures Present(Get(data, "name")) && Present(Get(data, "email"))
    ensures Present(Get(data, "company")) && Present(Get(data, "role"))
    ensures Present(Get(data, "clinicSize")) && Present(Get(data, "currentSystem"))
    ensures Present(Get(data, "budget")) && Present(Get(data, "timeline"))
  {
    var rf := RequiredFields;
    assert rf[0] == "name" && rf[1] == "email" && rf[2] == "company" && rf[3] == "role";
    assert rf[4] == "clinicSize" && rf[5] == "currentSystem" && rf[6] == "budget" && rf[7] == "timeline";
  }

  /** A body passes validation exactly when it is an object whose every
      required member is truthy; an empty string counts as missing. */
  lemma ValidIffAllPresent(data: Json)
    ensures MissingFields(data) == [] <==> Valid(data)
    ensures Valid(data) ==> data.JObj?
  {
    if MissingFields(data) != [] {
      assert MissingFields(data)[0] in MissingFields(data);
    }
    if !data.JObj? {
      assert "name" in MissingFields(data);
    }
  }

  /** Every text of a list, trimmed. */
  function TrimAll(xs: seq<string>): (r: seq<string>)
    ensures |r| == |xs| && forall i :: 0 <= i < |xs| ==> r[i] == Trim(xs[i])
  {
    if |xs| == 0 then [] else [Trim(xs[0])] + TrimAll(xs[1..])
  }

  predicate NonEmpty(t: string) {
    t != ""
  }

  /** The texts of a list, trimmed, with the empty ones dropped. */
  function TrimmedNonEmpty(xs: seq<string>): (r: seq<string>)
    ensures |r| <= |xs|
    ensures forall i :: 0 <= i < |r| ==> r[i] != "" && IsTrimmed(r[i])
  {
    var trimmed := TrimAll(xs);
    assert forall i :: 0 <= i < |trimmed| ==> IsTrimmed(trimmed[i]);
    Filter(trimmed, NonEmpty)
  }

  /** Every kept text is the trimmed form of some input text. */
  lemma TrimmedNonEmptySources(xs: seq<string>, i: int)
    requires 0 <= i < |TrimmedNonEmpty(xs)|
    ensures exists j :: 0 <= j < |xs| && TrimmedNonEmpty(xs)[i] == Trim(xs[j])
  {
    var trimmed := TrimAll(xs);
    var r := TrimmedNonEmpty(xs);
    assert r[i] in trimmed;
    var j :| 0 <= j < |trimmed| && trimmed[j] == r[i];
    assert r[i] == Trim(xs[j]);
  }

  /** Every input text that is not blank is kept, trimmed. */
  lemma TrimmedNonEmptyKeeps(xs: seq<string>, j: int)
    requires 0 <= j < |xs| && Trim(xs[j]) != ""
    ensures Trim(xs[j]) in TrimmedNonEmpty(xs)
  {
    var trimmed := TrimAll(xs);
    assert trimmed[j] == Trim(xs[j]);
    assert NonEmpty(trimmed[j]);
  }

  /** Every array element, rendered with String(); None when one of them throws. */
  function Rendered(items: seq<Json>): (r: Option<seq<string>>)
    ensures r.None? <==> exists i :: 0 <= i < |items| && Unconvertible(items[i])
    ensures r.Some? ==> |r.value| == |items| && forall i :: 0 <= i < |items| ==> Some(r.value[i]) == ToStr(items[i])
  {
    if |items| == 0 then Some([])
    else
      var head, tail := ToStr(items[0]), Rendered(items[1..]);
      assert forall i :: 1 <= i < |items| ==> items[i] == items[1..][i - 1];
      if head.Some? && tail.Some? then Some([head.value] + tail.value) else None
  }

  /** The `specialties` member is an array String() cannot render. */
  predicate SpecialtiesUnconvertible(data: Json) {
    var v := Get(data, "specialties");
    v.Some? && v.value.JArr? && Unconvertible(v.value)
  }

  /** The `specialties` value made into a list of non-empty trimmed texts:
      an array is rendered element by element, a text is cut at every comma,
      anything else (including undefined) gives the empty list. Fails (None)
      exactly for an array that String() cannot render. */
  function NormalizeSpecialties(v: Option<Json>): (r: Option<seq<string>>)
    ensures r.None? <==> v.Some? && v.value.JArr? && Unconvertible(v.value)
    ensures r.Some? ==> forall i :: 0 <= i < |r.value| ==> r.value[i] != "" && IsTrimmed(r.value[i])
    ensures v.Some? && v.value.JArr? && r.Some? ==> |r.value| <= |v.value.items|
    ensures v.Some? && v.value.JStr? ==> r.Some? && forall i :: 0 <= i < |r.value| ==> !Contains(r.value[i], ",")
    ensures !(v.Some? && (v.value.JArr? || v.value.JStr?)) ==> r == Some([])
  {
    match v
    case Some(JArr(items)) =>
      (match Rendered(items)
       case None => None
       case Some(texts) => Some(TrimmedNonEmpty(texts)))
    case Some(JStr(s)) =>
      SplitPiecesAvoidSeparator(s, ",");
      var pieces := Split(s, ",");
      var r := TrimmedNonEmpty(pieces);
      forall i | 0 <= i < |r|
        ensures !Contains(r[i], ",")
      {
        TrimmedNonEmptySources(pieces, i);
        var j :| 0 <= j < |pieces| && r[i] == Trim(pieces[j]);
        TrimmedHasNoComma(pieces[j]);
      }
      Some(r)
    case _ => Some([])
  }

  /** Trimming cannot introduce a comma. */
  lemma TrimmedHasNoComma(s: string)
    requires !Contains(s, ",")
    ensures !Contains(Trim(s), ",")
  {
    TrimBounds(s);
    var k := LeadingBlanks(s);
    var t := Trim(s);
    forall i | 0 <= i <= |t|
      ensures !OccursAt(t, ",", i)
    {
      if i + 1 <= |t| {
        assert t[i] == s[k + i];
        assert s[k + i..k + i + 1] == [s[k + i]];
        assert !OccursAt(s, ",", k + i);
        assert t[i..i + 1] == [t[i]];
      }
    }
  }

  /** Trimming and dropping empties works piece by piece. */
  lemma TrimmedNonEmptyConcat(x: seq<string>, y: seq<string>)
    ensures TrimmedNonEmpty(x + y) == TrimmedNonEmpty(x) + TrimmedNonEmpty(y)
  {
    TrimAllConcat(x, y);
    FilterConcat(TrimAll(x), TrimAll(y), NonEmpty);
  }

  lemma {:induction false} TrimAllConcat(x: seq<string>, y: seq<string>)
    ensures TrimAll(x + y) == TrimAll(x) + TrimAll(y)
    decreases |x|
  {
    if |x| == 0 {
      assert x + y == y;
    } else {
      assert (x + y)[0] == x[0];
      assert (x + y)[1..] == x[1..] + y;
      TrimAllConcat(x[1..], y);
      ConcatAssociative([Trim(x[0])], TrimAll(x[1..]), TrimAll(y));
    }
  }

  /** Trimming texts that are already trimmed changes nothing. */
  lemma TrimAllTrimmed(xs: seq<string>)
    requires forall i :: 0 <= i < |xs| ==> IsTrimmed(xs[i])
    ensures TrimAll(xs) == xs
  {
    var t := TrimAll(xs);
    forall i | 0 <= i < |xs|
      ensures t[i] == xs[i]
    {
      TrimOfTrimmed(xs[i]);
    }
  }

  /** Rendering a concatenation renders each part, and fails when either does. */
  lemma {:induction false} RenderedConcat(a: seq<Json>, b: seq<Json>)
    ensures Rendered(a + b) == if Rendered(a).Some? && Rendered(b).Some?
                               then Some(Rendered(a).value + Rendered(b).value) else None
    decreases |a|
  {
    if |a| == 0 {
      assert a + b == b;
      assert Rendered(a) == Some([]);
      if Rendered(b).Some? {
        assert [] + Rendered(b).value == Rendered(b).value;
      }
    } else {
      var ab := a + b;
      assert ab[0] == a[0];
      assert ab[1..] == a[1..] + b;
      RenderedConcat(a[1..], b);
      var h, ta, tab := ToStr(a[0]), Rendered(a[1..]), Rendered(a[1..] + b);
      assert Rendered(a) == if h.Some? && ta.Some? then Some([h.value] + ta.value) else None;
      assert Rendered(ab) == if h.Some? && tab.Some? then Some([h.value] + tab.value) else None;
      if h.None? || ta.None? {
        assert Rendered(a).None? && Rendered(ab).None?;
      } else if Rendered(b).None? {
        assert tab.None? && Rendered(ab).None?;
      } else {
        var x, y, z := h.value, ta.value, Rendered(b).value;
        assert Rendered(a) == Some([x] + y);
        assert Rendered(ab) == Some([x] + (y + z));
        ConcatAssociative([x], y, z);
      }
    }
  }

  /** Array elements: each is rendered and trimmed, empties are dropped, and the
      survivors keep their order (normalising a concatenation is concatenating
      the normalisations); an element String() cannot render fails the whole array. */
  lemma SpecialtiesArrayConcat(a: seq<Json>, b: seq<Json>)
    ensures NormalizeSpecialties(Some(JArr(a + b)))
         == if NormalizeSpecialties(Some(JArr(a))).Some? && NormalizeSpecialties(Some(JArr(b))).Some?
            then Some(NormalizeSpecialties(Some(JArr(a))).value + NormalizeSpecialties(Some(JArr(b))).value)
            else None
  {
    RenderedConcat(a, b);
    if Rendered(a).Some? && Rendered(b).Some? {
      TrimmedNonEmptyConcat(Rendered(a).value, Rendered(b).value);
    }
  }

  /** The normalisation of a one-element array is that element, rendered and
      trimmed, unless that is empty; it fails when String() throws for it. */
  lemma SpecialtiesSingleElement(x: Json)
    ensures NormalizeSpecialties(Some(JArr([x])))
         == match ToStr(x)
            case None => None
            case Some(s) => Some(if Trim(s) == "" then [] else [Trim(s)])
  {
    if ToStr(x).Some? {
      var t := TrimAll(Rendered([x]).value);
      assert t == [Trim(ToStr(x).value)];
      assert t[1..] == [];
    }
  }

  /** A list that is already normal, sent as an array of texts, comes back unchanged. */
  lemma SpecialtiesArrayFixedPoint(xs: seq<string>)
    requires forall i :: 0 <= i < |xs| ==> xs[i] != "" && IsTrimmed(xs[i])
    ensures NormalizeSpecialties(Some(StrArray(xs))) == Some(xs)
  {
    var items := StrArray(xs).items;
    assert forall i :: 0 <= i < |items| ==> !Unconvertible(items[i]);
    assert Rendered(items).value == xs;
    TrimAllTrimmed(xs);
    FilterKeepsAll(xs, NonEmpty);
  }

  /** Comma-separated text: the normalisation of `a,b` is that of `a`
      followed by that of `b`. */
  lemma SpecialtiesTextConcat(a: string, b: string)
    ensures NormalizeSpecialties(Some(JStr(a + "," + b)))
         == Some(NormalizeSpecialties(Some(JStr(a))).value + NormalizeSpecialties(Some(JStr(b))).value)
  {
    SplitConcat(a, ',', b);
    assert a + "," + b == a + [','] + b;
    TrimmedNonEmptyConcat(Split(a, ","), Split(b, ","));
  }

  /** A text without a comma is one specialty, trimmed, or none when it is blank.
      With SpecialtiesTextConcat this settles every text. */
  lemma SpecialtiesTextSegment(s: string)
    requires ',' !in s
    ensures NormalizeSpecialties(Some(JStr(s))) == Some(if Trim(s) == "" then [] else [Trim(s)])
  {
    NoCharNoOccurrence(s, ',');
    SplitWithoutSeparator(s, ",");
    var t := TrimAll([s]);
    assert t == [Trim(s)];
    assert t[1..] == [];
  }

  /** A normal list without commas, joined with commas and sent as one text,
      comes back unchanged. */
  lemma SpecialtiesTextRoundTrip(xs: seq<string>)
    requires forall i :: 0 <= i < |xs| ==> xs[i] != "" && IsTrimmed(xs[i]) && ',' !in xs[i]
    ensures NormalizeSpecialties(Some(JStr(Join(xs, ",")))) == Some(xs)
  {
    if |xs| == 0 {
      SpecialtiesTextSegment("");
      TrimOfTrimmed("");
    } else {
      SplitJoinSingle(xs, ',');
      TrimAllTrimmed(xs);
      FilterKeepsAll(xs, NonEmpty);
    }
  }

  /** `"a, b ,,c"` normalises to `["a", "b", "c"]`. */
  lemma SpecialtiesExample()
    ensures NormalizeSpecialties(Some(JStr("a, b ,,c"))) == Some(["a", "b", "c"])
  {
    ExampleSplit();
    ExampleTrim();
    ExampleFilter();
  }

  lemma ExampleFilter()
    ensures Filter(["a", "b", "", "c"], NonEmpty) == ["a", "b", "c"]
  {
    var t := ["a", "b", "", "c"];
    assert Filter(t[3..], NonEmpty) == ["c"];
    assert Filter(t[2..], NonEmpty) == ["c"];
    assert Filter(t[1..], NonEmpty) == ["b", "c"];
  }

  lemma ExampleSplit()
    ensures Split("a, b ,,c", ",") == ["a", " b ", "", "c"]
  {
    var pieces := ["a", " b ", "", "c"];
    ExampleJoin();
    SplitJoinSingle(pieces, ',');
  }

  lemma ExampleJoin()
    ensures Join(["a", " b ", "", "c"], ",") == "a, b ,,c"
  {
    var pieces := ["a", " b ", "", "c"];
    assert Join(pieces[3..], ",") == "c";
    assert Join(pieces[2..], ",") == ",c";
    assert Join(pieces[1..], ",") == " b ,,c";
  }

  lemma ExampleTrim()
    ensures TrimAll(["a", " b ", "", "c"]) == ["a", "b", "", "c"]
  {
    TrimOfTrimmed("a");
    TrimOfTrimmed("c");
    TrimOfTrimmed("");
    assert LeadingBlanks(" b ") == 1;
    assert TrailingBlanks("b ") == 1;
    assert Trim(" b ") == "b";
  }

  /** The log shows at most the first PreviewLimit characters of a message and
      marks a cut with an ellipsis. */
  function LogPreview(m: string): (r: string)
    ensures |m| <= PreviewLimit ==> r == m
    ensures |r| <= PreviewLimit + 1 && |r| >= Min(|m|, PreviewLimit)
    ensures r[..Min(|m|, PreviewLimit)] == m[..Min(|m|, PreviewLimit)]
    ensures |m| > PreviewLimit <==> |r| == PreviewLimit + 1
    ensures |m| > PreviewLimit ==> r[PreviewLimit] == Ellipsis
  {
    m[..Min(|m|, PreviewLimit)] + (if |m| > PreviewLimit then [Ellipsis] else [])
  }

  function Min(a: int, b: int): int {
    if a <= b then a else b
  }

  /** Cutting a preview again changes nothing. */
  lemma LogPreviewIdempotent(m: string)
    ensures LogPreview(LogPreview(m)) == LogPreview(m)
  {
    var r := LogPreview(m);
    if |m| > PreviewLimit {
      assert r[..PreviewLimit] == m[..PreviewLimit];
    }
  }

  /** The `message` member as logged: texts are cut, any other value
      (including undefined) is logged as it is. */
  function LoggedMessage(v: Option<Json>): (r: Option<Json>)
    ensures v.Some? && v.value.JStr? ==> r.Some? && r.value.JStr? && |r.value.s| <= PreviewLimit + 1
    ensures v.Some? && v.value.JStr? && |v.value.s| <= PreviewLimit ==> r == v
    ensures v.Some? && v.value.JStr? ==>
              r.Some? && r.value.JStr? && |r.value.s| >= Min(|v.value.s|, PreviewLimit)
              && r.value.s[..Min(|v.value.s|, PreviewLimit)] == v.value.s[..Min(|v.value.s|, PreviewLimit)]
    ensures !(v.Some? && v.value.JStr?) ==> r == v
  {
    match v
    case Some(JStr(s)) => Some(JStr(LogPreview(s)))
    case _ => v
  }

  /** All required values are truthy, the message is null or truthy, and the
      specialties are non-empty trimmed texts. */
  predicate CompleteRecord(r: AccessRequestData) {
    && Truthy(r.name) && Truthy(r.email) && Truthy(r.company) && Truthy(r.role)
    && Truthy(r.clinicSize) && Truthy(r.currentSystem) && Truthy(r.budget) && Truthy(r.timeline)
    && (r.message == JNull || Truthy(r.message))
    && forall i :: 0 <= i < |r.specialties| ==> r.specialties[i] != "" && IsTrimmed(r.specialties[i])
  }

  /** The stored record of a validated body: required values copied as they
      are, specialties normalised, and a falsy or absent message stored as null.
      None when normalising the specialties throws. */
  function BuildRecord(data: Json): (r: Option<AccessRequestData>)
    requires Valid(data)
    ensures r.None? <==> SpecialtiesUnconvertible(data)
    ensures r.Some? ==> CompleteRecord(r.value)
    ensures r.Some? ==> Get(data, "name") == Some(r.value.name) && Get(data, "email") == Some(r.value.email)
    ensures r.Some? ==> Get(data, "company") == Some(r.value.company) && Get(data, "role") == Some(r.value.role)
    ensures r.Some? ==> Get(data, "clinicSize") == Some(r.value.clinicSize)
    ensures r.Some? ==> Get(data, "currentSystem") == Some(r.value.currentSystem)
    ensures r.Some? ==> Get(data, "budget") == Some(r.value.budget) && Get(data, "timeline") == Some(r.value.timeline)
    ensures r.Some? ==> Some(r.value.specialties) == NormalizeSpecialties(Get(data, "specialties"))
    ensures r.Some? && Present(Get(data, "message")) ==> Get(data, "message") == Some(r.value.message)
    ensures r.Some? && !Present(Get(data, "message")) ==> r.value.message == JNull
  {
    RequiredPresent(data);
    var message := Get(data, "message");
    match NormalizeSpecialties(Get(data, "specialties"))
    case None => None
    case Some(specialties) =>
      Some(AccessRequestData(
        name := Get(data, "name").value,
        email := Get(data, "email").value,
        company := Get(data, "company").value,
        role := Get(data, "role").value,
        clinicSize := Get(data, "clinicSize").value,
        specialties := specialties,
        currentSystem := Get(data, "currentSystem").value,
        budget := Get(data, "budget").value,
        timeline := Get(data, "timeline").value,
        message := if Present(message) then message.value else JNull))
  }

  /** The handler after validation: build the record, hand it to the store,
      answer 201 with the stored row or 500 with the error's message. */
  function Store(data: Json, create: AccessRequestData -> CreateOutcome): (r: Response)
    requires Valid(data)
    ensures !r.Rejected?
    ensures SpecialtiesUnconvertible(data) ==> r == Failed(ConversionErrorMessage)
    ensures !SpecialtiesUnconvertible(data) ==>
              match create(BuildRecord(data).value)
              case Stored(row) => r == Created(row)
              case CreateError(message) => r == Failed(message)
  {
    match BuildRecord(data)
    case None => Failed(ConversionErrorMessage)
    case Some(record) =>
      match create(record)
      case Stored(row) => Created(row)
      case CreateError(message) => Failed(message)
  }

  /** The whole handler. `create` is the store: it is consulted only for a body
      that passed validation and whose specialties could be normalised. */
  function Post(body: Body, create: AccessRequestData -> CreateOutcome): (r: Response)
    ensures StatusCode(r) == 400 <==> body.Parsed? && !Valid(body.data)
    ensures body.Parsed? && !Valid(body.data) ==>
              r == Rejected(MissingFields(body.data), ReceivedKeys(body.data))
    ensures body.Unparsable? ==> r == Failed(body.reason)
    ensures body.Parsed? && Valid(body.data) && SpecialtiesUnconvertible(body.data) ==>
              r == Failed(ConversionErrorMessage)
    ensures body.Parsed? && Valid(body.data) && !SpecialtiesUnconvertible(body.data) ==>
              match create(BuildRecord(body.data).value)
              case Stored(row) => r == Created(row)
              case CreateError(message) => r == Failed(message)
  {
    match body
    case Unparsable(reason) => Failed(reason)
    case Parsed(data) =>
      var missing := MissingFields(data);
      ValidIffAllPresent(data);
      if |missing| > 0 then Rejected(missing, ReceivedKeys(data))
      else Store(data, create)
  }

  /** A rejected body never reaches the store: the answer is the same whatever
      the store would have done. */
  lemma RejectionNeverStores(data: Json, c1: AccessRequestData -> CreateOutcome,
                             c2: AccessRequestData -> CreateOutcome)
    requires !Valid(data)
    ensures Post(Parsed(data), c1) == Post(Parsed(data), c2)
    ensures StatusCode(Post(Parsed(data), c1)) == 400
  {
    ValidIffAllPresent(data);
  }

  /** A valid body whose specialties array holds `{"toString": 1}` is answered
      500 with the TypeError's message, whatever the store would have done. */
  lemma UnconvertibleSpecialtyFails(data: Json, create: AccessRequestData -> CreateOutcome)
    requires Valid(data)
    requires Get(data, "specialties") == Some(JArr([JObj([("toString", JNum(1))])]))
    ensures Post(Parsed(data), create) == Failed(ConversionErrorMessage)
    ensures StatusCode(Post(Parsed(data), create)) == 500
  {
    var bad := JObj([("toString", JNum(1))]);
    assert bad.members[0].0 == "toString";
    assert Unconvertible(JArr([bad])) by { assert Unconvertible([bad][0]); }
    ValidIffAllPresent(data);
  }

  /** A 201 answer always carries a row the store created from a complete record. */
  lemma CreatedMeansStored(body: Body, create: AccessRequestData -> CreateOutcome)
    ensures Post(body, create).Created? ==>
              && body.Parsed? && Valid(body.data) && !SpecialtiesUnconvertible(body.data)
              && CompleteRecord(BuildRecord(body.data).value)
              && create(BuildRecord(body.data).value) == Stored(Post(body, create).row)
  {
    if body.Parsed? && Post(body, create).Created? {
      var data := body.data;
      ValidIffAllPresent(data);
      assert Valid(data);
      assert !SpecialtiesUnconvertible(data);
      assert Post(body, create) == Store(data, create);
    }
  }
}

=== FILE: i18n.dfy ===
/** The two display languages, how a free-form language tag is mapped onto
    them, and the per-language string tables. */
module I18n {
  import opened Wrappers
  import opened Text

  datatype Lang = En | Pt

  const SupportedLangs: seq<Lang> := [En, Pt]

  /** The language's tag as the site writes it. */
  function Code(l: Lang): string {
    match l
    case En => "en"
    case Pt => "pt"
  }

  /** The tag begins with "pt" in any letter case. */
  predicate NamesPortuguese(s: string) {
    |s| >= 2 && (s[0] == 'p' || s[0] == 'P') && (s[1] == 't' || s[1] == 'T')
  }

  /** Maps a language tag (possibly null or undefined) onto a supported
      language: Portuguese for any tag starting with "pt" in any case,
      English for everything else, including the missing and the empty tag. */
  function NormalizeLang(input: Option<string>): (r: Lang)
    ensures input.None? || input == Some("") ==> r == En
    ensures r == Pt <==> input.Some? && NamesPortuguese(input.value)
    ensures r in SupportedLangs
  {
    if input.None? || input.value == "" then En
    else
      var v := ToLowerAscii(input.value);
      if StartsWith(v, "pt") then
        assert LowerChar(input.value[0]) == 'p' && LowerChar(input.value[1]) == 't';
        Pt
      else
        assert |v| >= 2 ==> v[..2] != "pt";
        assert |v| >= 2 ==> (v[0] != 'p' || v[1] != 't');
        En
  }

  /** Normalising the tag of a language gives that language back. */
  lemma CodeRoundTrip(l: Lang)
    ensures NormalizeLang(Some(Code(l))) == l
  {
  }

  /** Normalising is idempotent. */
  lemma NormalizeLangIdempotent(input: Option<string>)
    ensures NormalizeLang(Some(Code(NormalizeLang(input)))) == NormalizeLang(input)
  {
    CodeRoundTrip(NormalizeLang(input));
  }

  /** Letter case does not matter. */
  lemma NormalizeLangIgnoresCase(s: string)
    ensures NormalizeLang(Some(ToLowerAscii(s))) == NormalizeLang(Some(s))
  {
    var v := ToLowerAscii(s);
    if |s| >= 2 {
      assert v[0] == LowerChar(s[0]) && v[1] == LowerChar(s[1]);
    }
  }

  lemma NormalizeLangExamples()
    ensures NormalizeLang(Some("pt-BR")) == Pt
    ensures NormalizeLang(Some("PT")) == Pt
    ensures NormalizeLang(Some("en-US")) == En
    ensures NormalizeLang(Some("p")) == En
  {
  }

  datatype NavText = NavText(blog: string, home: string, request: string)

  /** The request form's labels. */
  datatype FormText = FormText(
    modalTitle: string,
    name: string,
    email: string,
    phone: string,
    industry: string,
    submit: string,
    processing: string,
    successTitle: string,
    successCta: string)

  /** One language's strings (the navigation bar and the request form). */
  datatype Dict = Dict(nav: NavText, form: FormText)

  const EnDict: Dict := Dict(
    NavText("Blog", "Home", "Request Analysis"),
    FormText("Request a Loyalty & Referral Program Analysis", "Name", "Email", "Phone",
             "Industry", "Request Analysis", "Processing...", "Request received",
             "Go to scheduling"))

  const PtDict: Dict := Dict(
    NavText("Blog", "In\U{ed}cio", "Solicitar An\U{e1}lise"),
    FormText("Solicite uma An\U{e1}lise de Programa de Fidelidade e Indica\U{e7}\U{e3}o",
             "Nome", "E-mail", "Telefone", "Setor", "Solicitar An\U{e1}lise", "Processando...",
             "Solicita\U{e7}\U{e3}o recebida", "Ir para agendamento"))

  /** The string tables, one per supported language. */
  const DictTable: map<Lang, Dict> := map[En := EnDict, Pt := PtDict]

  /** The table of the requested language. */
  function GetDict(lang: Lang): (d: Dict)
    ensures lang in DictTable && d == DictTable[lang]
  {
    match lang
    case En => EnDict
    case Pt => PtDict
  }

  /** Every supported language has a table, and different languages get
      different tables. */
  lemma GetDictTotalAndDistinct(a: Lang, b: Lang)
    ensures forall l :: l in SupportedLangs <==> l in DictTable
    ensures GetDict(a) == GetDict(b) <==> a == b
  {
    assert EnDict.nav.home != PtDict.nav.home;
  }
}

=== FILE: intake_form.dfy ===
/** The lead-capture form shared by the home page and the request-analysis
    call-to-action: a draft, an in-flight guard, the request dialog and the
    success dialog, driven by user input and by the answer to the submission. */
module IntakeForm {

  /** What the user has typed so far. The industry picker stores its single
      choice as a one-element list. */
  datatype Draft = Draft(name: string, email: string, phone: string, specialties: seq<string>)

  const EmptyDraft: Draft := Draft("", "", "", [])

  datatype UiState = UiState(draft: Draft, isSubmitting: bool, requestOpen: bool, successOpen: bool)

  datatype TextField = NameField | EmailField | PhoneField

  datatype Event =
    | Edit(field: TextField, value: string)
    | SelectIndustry(industry: string)
    | SetRequestOpen(requestOpen: bool)
    | SetSuccessOpen(successOpen: bool)
    | Submit
    | ResponseOk
    /** A 2xx answer, but the Facebook Pixel call threw after the draft was
        cleared and the request dialog closed. */
    | ResponseOkPixelThrew
    /** A non-2xx answer or a network error. */
    | ResponseFailed

  /** What a step asks of the outside world. */
  datatype Effect =
    | SendRequest(body: Draft)
    | TrackLead
    | AlertFailure
    /** Arm the timer that navigates to the scheduling page. */
    | ScheduleRedirect
    | CancelRedirect

  datatype Transition = Transition(next: UiState, effects: seq<Effect>)

  /** The values offered by the industry picker. */
  const Industries: seq<string> :=
    ["retail", "ecommerce", "hospitality", "health-wellness", "beauty-aesthetics",
     "fitness", "food-beverage", "professional-services", "saas", "other"]

  function WithField(d: Draft, f: TextField, v: string): Draft {
    match f
    case NameField => d.(name := v)
    case EmailField => d.(email := v)
    case PhoneField => d.(phone := v)
  }

  /** The text a field currently holds. */
  function FieldValue(d: Draft, f: TextField): string {
    match f
    case NameField => d.name
    case EmailField => d.email
    case PhoneField => d.phone
  }

  /** The redirect timer follows the success dialog: armed when it opens,
      cleared when it closes. */
  function RedirectEffects(before: bool, after: bool): seq<Effect> {
    if !before && after then [ScheduleRedirect]
    else if before && !after then [CancelRedirect]
    else []
  }

  /** The events that settle a submission. */
  predicate IsAnswer(e: Event) {
    e.ResponseOk? || e.ResponseOkPixelThrew? || e.ResponseFailed?
  }

  /** The state change and direct effects of one event. */
  function React(s: UiState, e: Event): Transition {
    match e
    case Edit(f, v) => Transition(s.(draft := WithField(s.draft, f, v)), [])
    case SelectIndustry(v) => Transition(s.(draft := s.draft.(specialties := [v])), [])
    case SetRequestOpen(open) => Transition(s.(requestOpen := open), [])
    case SetSuccessOpen(open) => Transition(s.(successOpen := open), [])
    case Submit =>
      if s.isSubmitting then Transition(s, [])
      else Transition(s.(isSubmitting := true), [SendRequest(s.draft)])
    case ResponseOk =>
      if !s.isSubmitting then Transition(s, [])
      else Transition(UiState(EmptyDraft, false, false, true), [TrackLead])
    case ResponseOkPixelThrew =>
      if !s.isSubmitting then Transition(s, [])
      else Transition(UiState(EmptyDraft, false, false, s.successOpen), [AlertFailure])
    case ResponseFailed =>
      if !s.isSubmitting then Transition(s, [])
      else Transition(s.(isSubmitting := false), [AlertFailure])
  }

  /** One event, with the redirect timer kept in step with the success dialog. */
  function Step(s: UiState, e: Event): (t: Transition)
    // editing touches one field of the draft and nothing else
    ensures e.Edit? ==> && FieldValue(t.next.draft, e.field) == e.value
                        && (forall g :: g != e.field ==> FieldValue(t.next.draft, g) == FieldValue(s.draft, g))
                        && t.next.draft.specialties == s.draft.specialties
                        && t.next.(draft := s.draft) == s && t.effects == []
    // picking an industry makes it the only specialty
    ensures e.SelectIndustry? ==> t.next == s.(draft := s.draft.(specialties := [e.industry])) && t.effects == []
    // a second submit while one is in flight does nothing at all
    ensures e.Submit? && s.isSubmitting ==> t == Transition(s, [])
    // a submit marks the form busy and sends the draft as it is
    ensures e.Submit? && !s.isSubmitting ==> t.next == s.(isSubmitting := true) && t.effects == [SendRequest(s.draft)]
    // success: empty draft, request dialog closed, success dialog open, lead tracked
    ensures e.ResponseOk? && s.isSubmitting ==>
              && t.next == UiState(EmptyDraft, false, false, true)
              && |t.effects| >= 1 && t.effects[0] == TrackLead
              && (ScheduleRedirect in t.effects <==> !s.successOpen)
    // the pixel throws: the draft is already cleared and the request dialog
    // closed, but the success dialog does not open and the failure alert shows
    ensures e.ResponseOkPixelThrew? && s.isSubmitting ==>
              t == Transition(UiState(EmptyDraft, false, false, s.successOpen), [AlertFailure])
    // failure: draft and dialogs untouched, one alert
    ensures e.ResponseFailed? && s.isSubmitting ==> t.next == s.(isSubmitting := false) && t.effects == [AlertFailure]
    // every settled submission leaves the form idle
    ensures IsAnswer(e) ==> !t.next.isSubmitting
    // the dialogs' open flags follow the user's toggles
    ensures e.SetRequestOpen? ==> t.next == s.(requestOpen := e.requestOpen)
    ensures e.SetSuccessOpen? ==> t.next == s.(successOpen := e.successOpen)
    // the redirect timer is armed exactly as the success dialog appears and
    // cleared exactly as it closes, so it runs only while the dialog is shown
    ensures ScheduleRedirect in t.effects <==> !s.successOpen && t.next.successOpen
    ensures CancelRedirect in t.effects <==> s.successOpen && !t.next.successOpen
    // a request leaves only on an accepted submit, carrying the current draft
    ensures forall b :: SendRequest(b) in t.effects ==> e.Submit? && !s.isSubmitting && b == s.draft
  {
    var base := React(s, e);
    Transition(base.next, base.effects + RedirectEffects(s.successOpen, base.next.successOpen))
  }

  /** A sequence of events, with all the effects they ask for, in order. */
  function Run(s: UiState, events: seq<Event>): Transition
    decreases |events|
  {
    if |events| == 0 then Transition(s, [])
    else
      var first := Step(s, events[0]);
      var rest := Run(first.next, events[1..]);
      Transition(rest.next, first.effects + rest.effects)
  }

  function CountSends(effects: seq<Effect>): nat {
    if |effects| == 0 then 0
    else (if effects[0].SendRequest? then 1 else 0) + CountSends(effects[1..])
  }

  function CountResponses(events: seq<Event>): nat {
    if |events| == 0 then 0
    else (if IsAnswer(events[0]) then 1 else 0) + CountResponses(events[1..])
  }

  lemma {:induction false} CountSendsConcat(a: seq<Effect>, b: seq<Effect>)
    ensures CountSends(a + b) == CountSends(a) + CountSends(b)
  {
    if |a| > 0 {
      assert (a + b)[1..] == a[1..] + b;
      CountSendsConcat(a[1..], b);
    } else {
      assert a + b == b;
    }
  }

  /** One event sends at most one request, and only a submit from an idle form does. */
  lemma StepSends(s: UiState, e: Event)
    ensures CountSends(Step(s, e).effects) == if e.Submit? && !s.isSubmitting then 1 else 0
  {
    var base := React(s, e);
    var redirect := RedirectEffects(s.successOpen, base.next.successOpen);
    CountSendsConcat(base.effects, redirect);
    assert CountSends(redirect) == 0;
  }

  /** The in-flight guard: over any run, requests sent never exceed the
      answers received plus one, and plus none when a request is already out. */
  lemma {:induction false} AtMostOneRequestInFlight(s: UiState, events: seq<Event>)
    ensures CountSends(Run(s, events).effects) + (if s.isSubmitting then 1 else 0)
            <= CountResponses(events) + 1
    decreases |events|
  {
    if |events| > 0 {
      var e := events[0];
      var first := Step(s, e);
      AtMostOneRequestInFlight(first.next, events[1..]);
      CountSendsConcat(first.effects, Run(first.next, events[1..]).effects);
      StepSends(s, e);
    }
  }

  /** A double click sends one request. */
  lemma DoubleSubmitSendsOnce(s: UiState)
    requires !s.isSubmitting
    ensures CountSends(Run(s, [Submit, Submit]).effects) == 1
  {
    AtMostOneRequestInFlight(s, [Submit, Submit]);
    var first := Step(s, Submit);
    assert [Submit, Submit][1..] == [Submit];
    CountSendsConcat(first.effects, Run(first.next, [Submit]).effects);
    StepSends(s, Submit);
  }

  /** A submission that fails leaves the draft as it was, so the user can retry,
      and opens no success dialog. */
  lemma FailedSubmissionKeepsDraft(s: UiState)
    requires !s.isSubmitting
    ensures Run(s, [Submit, ResponseFailed]).next == s
  {
    assert [Submit, ResponseFailed][1..] == [ResponseFailed];
  }

  /** A submission that succeeds empties the draft and swaps the request dialog
      for the success dialog. */
  lemma SuccessfulSubmissionResets(s: UiState)
    requires !s.isSubmitting
    ensures Run(s, [Submit, ResponseOk]).next == UiState(EmptyDraft, false, false, true)
  {
    assert [Submit, ResponseOk][1..] == [ResponseOk];
  }

  /** A pixel that throws after a successful answer costs the draft: it is
      cleared and the request dialog closed, yet the user sees the failure
      alert and no success dialog. */
  lemma PixelFailureLosesDraft(s: UiState)
    requires !s.isSubmitting
    ensures Run(s, [Submit, ResponseOkPixelThrew]).next == UiState(EmptyDraft, false, false, s.successOpen)
    ensures Run(s, [Submit, ResponseOkPixelThrew]).effects == [SendRequest(s.draft), AlertFailure]
  {
    assert [Submit, ResponseOkPixelThrew][1..] == [ResponseOkPixelThrew];
  }

  /** Picking any of the offered industries makes it the draft's only specialty. */
  lemma SelectOfferedIndustry(s: UiState, i: int)
    requires 0 <= i < |Industries|
    ensures Step(s, SelectIndustry(Industries[i])).next.draft.specialties == [Industries[i]]
    ensures Step(s, SelectIndustry(Industries[i])).next.draft.specialties[0] in Industries
  {
  }
}

=== FILE: json.dfy ===
/** Parsed JSON values as the request handler sees them, with the JavaScript
    coercions the handler applies to them: truthiness, optional member access,
    Object.keys and String(). */
module JsonValues {
  import opened Wrappers
  import opened Text

  /** A value produced by JSON.parse. Numbers are integers in this model.
      An object is its member list in source order; JSON.parse keeps the last
      value of a repeated name. */
  datatype Json =
    | JNull
    | JBool(b: bool)
    | JNum(n: int)
    | JStr(s: string)
    | JArr(items: seq<Json>)
    | JObj(members: seq<(string, Json)>)

  /** JavaScript ToBoolean: null, false, 0 and "" are falsy; arrays and objects,
      even empty ones, are truthy. */
  predicate Truthy(v: Json) {
    match v
    case JNull => false
    case JBool(b) => b
    case JNum(n) => n != 0
    case JStr(s) => s != ""
    case JArr(_) => true
    case JObj(_) => true
  }

  /** Exactly four JSON values are falsy. */
  lemma FalsyValues(v: Json)
    ensures !Truthy(v) <==> v == JNull || v == JBool(false) || v == JNum(0) || v == JStr("")
  {
  }

  /** Truthiness of a member that may be undefined (undefined is falsy). */
  predicate Present(v: Option<Json>) {
    v.Some? && Truthy(v.value)
  }

  /** The value bound to `k`: the last member with that name, if any. */
  function Lookup(members: seq<(string, Json)>, k: string): (r: Option<Json>)
    ensures r.None? <==> forall i :: 0 <= i < |members| ==> members[i].0 != k
    ensures r.Some? ==> exists i :: 0 <= i < |members| && members[i] == (k, r.value)
                                     && forall j :: i < j < |members| ==> members[j].0 != k
  {
    if |members| == 0 then None
    else if members[|members| - 1].0 == k then Some(members[|members| - 1].1)
    else Lookup(members[..|members| - 1], k)
  }

  /** Optional member access `v?.[k]` for the field names the handler reads
      (none of them is an index, `length`, or an inherited property name), so
      only an object's own member can supply a value. */
  function Get(v: Json, k: string): (r: Option<Json>)
    ensures !v.JObj? ==> r.None?
  {
    if v.JObj? then Lookup(v.members, k) else None
  }

  /** A member read finds the last member of that name, and undefined when the
      object has none. */
  lemma GetLastMember(v: Json, k: string)
    requires v.JObj?
    ensures Get(v, k).None? <==> forall i :: 0 <= i < |v.members| ==> v.members[i].0 != k
    ensures Get(v, k).Some? ==>
              exists i :: 0 <= i < |v.members| && v.members[i] == (k, Get(v, k).value)
                          && forall j :: i < j < |v.members| ==> v.members[j].0 != k
  {
  }

  /** The member names of an object, each once, in order of first appearance. */
  function Keys(members: seq<(string, Json)>): (r: seq<string>)
    ensures forall k :: k in r <==> exists i :: 0 <= i < |members| && members[i].0 == k
    ensures forall i, j :: 0 <= i < j < |r| ==> r[i] != r[j]
  {
    if |members| == 0 then []
    else
      var rest := Keys(members[..|members| - 1]);
      var k := members[|members| - 1].0;
      if k in rest then rest else rest + [k]
  }

  /** The index names "0", "1", ... of a string or array of length n. */
  function IndexNames(n: nat): (r: seq<string>)
    ensures |r| == n && forall i :: 0 <= i < n ==> r[i] == NatToDecimal(i)
  {
    seq(n, i requires 0 <= i < n => NatToDecimal(i))
  }

  /** `Object.keys(v || {})`: nothing for a falsy value or a boxed boolean or
      number, the index names of a string or array, the member names of an object. */
  function ReceivedKeys(v: Json): (r: seq<string>)
    ensures !Truthy(v) ==> r == []
    ensures v.JObj? ==> forall k :: k in r <==> Get(v, k).Some?
    ensures forall i, j :: 0 <= i < j < |r| ==> r[i] != r[j]
  {
    if !Truthy(v) then []
    else match v
      case JStr(s) => IndexNamesDistinct(|s|); IndexNames(|s|)
      case JArr(items) => IndexNamesDistinct(|items|); IndexNames(|items|)
      case JObj(members) => Keys(members)
      case _ => []
  }

  lemma IndexNamesDistinct(n: nat)
    ensures forall i, j :: 0 <= i < j < n ==> IndexNames(n)[i] != IndexNames(n)[j]
  {
    forall i, j | 0 <= i < j < n
      ensures NatToDecimal(i) != NatToDecimal(j)
    {
      if NatToDecimal(i) == NatToDecimal(j) {
        NatToDecimalInjective(i, j);
      }
    }
  }

  /** String(v) throws a TypeError: an object with an own member named
      "toString" (a parsed value is never callable, and the inherited valueOf
      gives back the object itself), or an array holding such an object at any
      depth (Array.prototype.join renders every element). */
  predicate Unconvertible(v: Json)
    decreases v
  {
    match v
    case JObj(members) => exists i :: 0 <= i < |members| && members[i].0 == "toString"
    case JArr(items) => exists i :: 0 <= i < |items| && Unconvertible(items[i])
    case _ => false
  }

  /** JavaScript String(v), or None where it throws. Inside an array, null
      renders as the empty text (Array.prototype.join); an object without its
      own "toString" renders as "[object Object]". */
  function ToStr(v: Json): (r: Option<string>)
    ensures r.None? <==> Unconvertible(v)
    ensures v.JStr? ==> r == Some(v.s)
    ensures v.JObj? && r.Some? ==> r.value == "[object Object]"
    decreases v
  {
    match v
    case JNull => Some("null")
    case JBool(b) => Some(if b then "true" else "false")
    case JNum(n) => Some(IntToDecimal(n))
    case JStr(s) => Some(s)
    case JArr(items) =>
      var parts := seq(|items|, i requires 0 <= i < |items| =>
                         if items[i].JNull? then Some("") else ToStr(items[i]));
      assert forall i :: 0 <= i < |items| ==> (parts[i].None? <==> Unconvertible(items[i]));
      if forall i :: 0 <= i < |items| ==> parts[i].Some? then
        Some(Join(seq(|items|, i requires 0 <= i < |items| => parts[i].GetOr("")), ","))
      else None
    case JObj(members) => if Lookup(members, "toString").Some? then None else Some("[object Object]")
  }

  /** A list of texts as a JSON array. */
  function StrArray(xs: seq<string>): (r: Json)
    ensures r.JArr? && |r.items| == |xs|
    ensures forall i :: 0 <= i < |xs| ==> r.items[i] == JStr(xs[i])
  {
    JArr(seq(|xs|, i requires 0 <= i < |xs| => JStr(xs[i])))
  }
}

=== FILE: language_detection.dfy ===
/** The home page's choice of display language: Portuguese for visitors whose
    `country` cookie says Brazil or whose browser language is Portuguese. */
module LanguageDetection {
  import opened Wrappers
  import opened Text
  import opened I18n

  const CountryPrefix: string := "country="

  /** Position of the first entry that starts with `prefix`. */
  function FirstWithPrefix(entries: seq<string>, prefix: string): (r: Option<nat>)
    ensures r.Some? ==> r.value < |entries| && StartsWith(entries[r.value], prefix)
    ensures r.Some? ==> forall j :: 0 <= j < r.value ==> !StartsWith(entries[j], prefix)
    ensures r.None? <==> forall j :: 0 <= j < |entries| ==> !StartsWith(entries[j], prefix)
  {
    if |entries| == 0 then None
    else if StartsWith(entries[0], prefix) then Some(0)
    else match FirstWithPrefix(entries[1..], prefix)
      case None => None
      case Some(i) => Some(i + 1)
  }

  /** `v` is what follows "country=" in the entry, up to the next '=' or the end. */
  predicate CountryValueOf(entry: string, v: string) {
    && StartsWith(entry, CountryPrefix)
    && StartsWith(entry[|CountryPrefix|..], v)
    && '=' !in v
    && (|entry| == |CountryPrefix| + |v| || entry[|CountryPrefix| + |v|] == '=')
  }

  /** The country recorded in a `document.cookie` string: the entries are
      separated by "; ", the first one starting with "country=" is taken, and
      its value is the text between its first and second '='. */
  function CookieCountry(cookie: string): (r: Option<string>)
    ensures r.None? <==> FirstWithPrefix(Split(cookie, "; "), CountryPrefix).None?
    ensures r.None? <==> (forall k :: 0 <= k < |Split(cookie, "; ")| ==> !StartsWith(Split(cookie, "; ")[k], CountryPrefix))
    ensures r.Some? ==> exists j :: FirstWithPrefix(Split(cookie, "; "), CountryPrefix) == Some(j)
                                    && CountryValueOf(Split(cookie, "; ")[j], r.value)
  {
    var entries := Split(cookie, "; ");
    match FirstWithPrefix(entries, CountryPrefix)
    case None => None
    case Some(j) =>
      var entry := entries[j];
      SegmentAfterName(entry);
      var v := Split(entry, "=")[1];
      assert j < |entries| && StartsWith(entries[j], CountryPrefix);
      assert !(forall k :: 0 <= k < |entries| ==> !StartsWith(entries[k], CountryPrefix));
      assert FirstWithPrefix(entries, CountryPrefix) == Some(j) && CountryValueOf(entries[j], v);
      Some(v)
  }

  /** Cutting an entry "country=..." at '=' yields at least two pieces, and the
      second is the value as CountryValueOf describes it. */
  lemma SegmentAfterName(entry: string)
    requires StartsWith(entry, CountryPrefix)
    ensures |Split(entry, "=")| >= 2
    ensures CountryValueOf(entry, Split(entry, "=")[1])
  {
    var rest := entry[|CountryPrefix|..];
    assert entry == "country" + ['='] + rest;
    assert '=' !in "country";
    SplitAfterSegment("country", '=', rest);
    var pieces := Split(rest, "=");
    var v := pieces[0];
    SplitPiecesAvoidSeparator(rest, "=");
    assert !Contains(v, "=");
    forall k | 0 <= k < |v|
      ensures v[k] != '='
    {
      assert !OccursAt(v, "=", k);
      assert v[k..k + 1] == [v[k]];
    }
    JoinSplit(rest, "=");
    if |pieces| >= 2 {
      assert rest == v + "=" + Join(pieces[1..], "=");
      assert rest[|v|] == '=';
    } else {
      assert rest == v;
    }
  }

  /** The detected language, given the cookie string (empty when there is no
      document) and the browser language (None when there is no navigator). */
  function DetectLang(cookie: string, navLang: Option<string>): (r: Lang)
    ensures r == Pt <==> CookieCountry(cookie) == Some("BR") || NormalizeLang(navLang) == Pt
  {
    var browserPt := navLang.Some? && navLang.value != "" && NormalizeLang(navLang) == Pt;
    if CookieCountry(cookie) == Some("BR") || browserPt then Pt else En
  }

  /** A visitor whose only cookie says Brazil gets Portuguese whatever the
      browser language. */
  lemma BrazilCookieWins(navLang: Option<string>)
    ensures DetectLang("country=BR", navLang) == Pt
  {
    BrazilCookieEntries();
    BrazilCookieValue();
    assert StartsWith("country=BR", CountryPrefix);
    assert FirstWithPrefix(["country=BR"], CountryPrefix) == Some(0);
  }

  lemma BrazilCookieEntries()
    ensures Split("country=BR", "; ") == ["country=BR"]
  {
    var cookie := "country=BR";
    forall k | 0 <= k <= |cookie|
      ensures !OccursAt(cookie, "; ", k)
    {
      if k + 2 <= |cookie| {
        assert cookie[k..k + 2][1] == cookie[k + 1];
      }
    }
    SplitWithoutSeparator(cookie, "; ");
  }

  lemma BrazilCookieValue()
    ensures Split("country=BR", "=") == ["country", "BR"]
  {
    assert "country=BR" == "country" + ['='] + "BR";
    SplitAfterSegment("country", '=', "BR");
    NoCharNoOccurrence("BR", '=');
    SplitWithoutSeparator("BR", "=");
  }

  /** Without a cookie, the browser language alone decides. */
  lemma NoCookieFollowsBrowser(navLang: Option<string>)
    ensures DetectLang("", navLang) == NormalizeLang(navLang)
  {
    assert Split("", "; ") == [""];
    assert !StartsWith("", CountryPrefix);
  }

  /** What reading the browser environment produced: the document's cookie
      string and the navigator's language when they exist, or an exception. */
  datatype Probe = Read(cookie: Option<string>, navLang: Option<string>) | Threw

  /** The language the home page switches to after mounting; any exception
      while detecting leaves it English. */
  function DetectLanguage(p: Probe): (r: Lang)
    ensures p.Threw? ==> r == En
    ensures p.Read? ==> (r == Pt <==> CookieCountry(p.cookie.GetOr("")) == Some("BR") || NormalizeLang(p.navLang) == Pt)
    ensures r in SupportedLangs
  {
    match p
    case Threw => En
    case Read(cookie, navLang) => DetectLang(cookie.GetOr(""), navLang)
  }
}

=== FILE: middleware.dfy ===
/** The edge middleware that records the visitor's country in a cookie, once,
    from the hosting platform's geolocation header. */
module Middleware {
  import opened Wrappers

  const CountryCookieName: string := "country"

  /** Seven days, in seconds. */
  const CookieMaxAge: nat := 60 * 60 * 24 * 7

  datatype SameSite = Lax

  /** A cookie written on the response, with its attributes. */
  datatype CookieSpec = CookieSpec(name: string, value: string, path: string, maxAge: nat, sameSite: SameSite)

  /** What the middleware reads from a page request: the geolocation header and
      the value of an existing `country` cookie (None when either is absent). */
  datatype PageRequest = PageRequest(countryHeader: Option<string>, countryCookie: Option<string>)

  /** The request continues to the page unchanged; the only addition is at most
      one cookie on the response. */
  datatype Outcome = Continue(setCookie: Option<CookieSpec>)

  /** A cookie is written exactly when there is no `country` cookie yet (or
      only an empty one) and the header is non-empty; it carries the header's
      value, path "/", a week's max-age and SameSite=Lax. */
  function HandlePageRequest(req: PageRequest): (r: Outcome)
    ensures r.setCookie.Some? <==>
              (req.countryCookie.None? || req.countryCookie == Some(""))
              && req.countryHeader.Some? && req.countryHeader.value != ""
    ensures r.setCookie.Some? ==>
              r.setCookie.value == CookieSpec("country", req.countryHeader.value, "/", 604800, Lax)
  {
    var country := req.countryHeader.GetOr("");
    var existing := req.countryCookie;
    if (existing.None? || existing.value == "") && country != "" then
      Continue(Some(CookieSpec(CountryCookieName, country, "/", CookieMaxAge, Lax)))
    else
      Continue(None)
  }

  /** A non-empty `country` cookie is never overwritten, whatever the header says. */
  lemma ExistingCookieKept(header: Option<string>, existing: string)
    requires existing != ""
    ensures HandlePageRequest(PageRequest(header, Some(existing))).setCookie.None?
  {
  }

  /** Without the geolocation header nothing is written. */
  lemma MissingHeaderWritesNothing(existing: Option<string>)
    ensures HandlePageRequest(PageRequest(None, existing)) == Continue(None)
  {
  }
}

=== FILE: pipeline.dfy ===
/** The form and the handler together: the draft is serialised as a JSON
    object, posted, and the answer drives the form's next step. */
module Pipeline {
  import opened Wrappers
  import opened Text
  import opened JsonValues
  import opened AccessRequest
  import opened IntakeForm

  /** The body the form posts: JSON.stringify of the draft, as the handler
      parses it back. */
  function DraftJson(d: Draft): (v: Json)
    ensures Get(v, "name") == Some(JStr(d.name)) && Get(v, "email") == Some(JStr(d.email))
    ensures Get(v, "phone") == Some(JStr(d.phone)) && Get(v, "specialties") == Some(StrArray(d.specialties))
    ensures forall k :: Get(v, k).Some? <==> k in ["name", "email", "phone", "specialties"]
  {
    var m := [("name", JStr(d.name)), ("email", JStr(d.email)), ("phone", JStr(d.phone)),
              ("specialties", StrArray(d.specialties))];
    assert m[0].0 == "name" && m[1].0 == "email" && m[2].0 == "phone" && m[3].0 == "specialties";
    assert Lookup(m, "name") == Some(JStr(d.name));
    assert Lookup(m, "email") == Some(JStr(d.email));
    assert Lookup(m, "phone") == Some(JStr(d.phone));
    assert Lookup(m, "specialties") == Some(StrArray(d.specialties));
    JObj(m)
  }

  /** How the form reads the answer: any 2xx status is success, and then
      `pixelThrows` says whether the Facebook Pixel call threw. Of the
      handler's answers only a creation is 2xx. */
  function Answer(r: Response, pixelThrows: bool): (e: Event)
    ensures e == ResponseOk <==> r.Created? && !pixelThrows
    ensures e == ResponseOkPixelThrew <==> r.Created? && pixelThrows
    ensures e == ResponseFailed <==> r.Rejected? || r.Failed?
  {
    if 200 <= StatusCode(r) < 300 then
      if pixelThrows then ResponseOkPixelThrew else ResponseOk
    else ResponseFailed
  }

  /** Object.keys of the posted body: the draft's four fields, in order. */
  lemma DraftKeys(d: Draft)
    ensures ReceivedKeys(DraftJson(d)) == ["name", "email", "phone", "specialties"]
  {
    FourKeys(DraftJson(d).members);
  }

  lemma FourKeys(m: seq<(string, Json)>)
    requires |m| == 4 && m[0].0 == "name" && m[1].0 == "email" && m[2].0 == "phone" && m[3].0 == "specialties"
    ensures Keys(m) == ["name", "email", "phone", "specialties"]
  {
    assert m[..1][..0] == [];
    assert Keys(m[..1]) == ["name"];
    assert m[..2][..1] == m[..1];
    assert Keys(m[..2]) == ["name", "email"];
    assert m[..3][..2] == m[..2];
    assert Keys(m[..3]) == ["name", "email", "phone"];
    assert m[..3] == m[..|m| - 1];
  }

  /** A required member holding text is missing exactly when the text is empty. */
  lemma RequiredText(data: Json, f: string, s: string)
    requires f in RequiredFields && Get(data, f) == Some(JStr(s))
    ensures f in MissingFields(data) <==> s == ""
  {
    var missing := MissingFields(data);
    assert f in missing <==> !Present(Get(data, f));
    TextPresent(s);
  }

  lemma TextPresent(s: string)
    ensures Present(Some(JStr(s))) <==> s != ""
  {
  }

  /** A required member the body does not have is missing. */
  lemma RequiredAbsent(d: Draft, f: string)
    requires f in ["company", "role", "clinicSize", "currentSystem", "budget", "timeline"]
    ensures f in MissingFields(DraftJson(d))
  {
    assert f !in ["name", "email", "phone", "specialties"];
    assert Get(DraftJson(d), f).None?;
    assert f in RequiredFields;
  }

  /** Which required fields the posted body lacks. */
  lemma DraftMissing(d: Draft)
    ensures forall f :: f in ["company", "role", "clinicSize", "currentSystem", "budget", "timeline"] ==>
              f in MissingFields(DraftJson(d))
    ensures "name" in MissingFields(DraftJson(d)) <==> d.name == ""
    ensures "email" in MissingFields(DraftJson(d)) <==> d.email == ""
    ensures "phone" !in MissingFields(DraftJson(d))
  {
    forall f | f in ["company", "role", "clinicSize", "currentSystem", "budget", "timeline"]
      ensures f in MissingFields(DraftJson(d))
    {
      RequiredAbsent(d, f);
    }
    DraftNameField(d);
    DraftEmailField(d);
    DraftPhoneField(d);
  }

  lemma DraftNameField(d: Draft)
    ensures "name" in MissingFields(DraftJson(d)) <==> d.name == ""
  {
    RequiredText(DraftJson(d), "name", d.name);
  }

  lemma DraftEmailField(d: Draft)
    ensures "email" in MissingFields(DraftJson(d)) <==> d.email == ""
  {
    RequiredText(DraftJson(d), "email", d.email);
  }

  lemma DraftPhoneField(d: Draft)
    ensures "phone" !in MissingFields(DraftJson(d))
  {
    assert "phone" !in RequiredFields;
  }

  /** The form never collects company, role, clinic size, current system,
      budget or timeline (DraftMissing), so the handler rejects every form
      submission with 400, whatever the store would do, echoing the four keys
      the form sends. */
  lemma FormSubmissionAlwaysRejected(d: Draft, create: AccessRequestData -> CreateOutcome)
    ensures Post(Parsed(DraftJson(d)), create) ==
              Rejected(MissingFields(DraftJson(d)), ["name", "email", "phone", "specialties"])
    ensures StatusCode(Post(Parsed(DraftJson(d)), create)) == 400
  {
    var v := DraftJson(d);
    assert MissingFields(v) != [] by {
      RequiredAbsent(d, "company");
    }
    DraftKeys(d);
  }

  /** The form reads every answer to its own submissions as a failure. */
  lemma FormSubmissionFails(d: Draft, create: AccessRequestData -> CreateOutcome, pixelThrows: bool)
    ensures Answer(Post(Parsed(DraftJson(d)), create), pixelThrows) == ResponseFailed
  {
    FormSubmissionAlwaysRejected(d, create);
  }

  /** A failed answer to an accepted submit puts the form back as it was. */
  lemma FailureRestores(s: UiState)
    requires !s.isSubmitting
    ensures Step(Step(s, Submit).next, ResponseFailed) == Transition(s, [AlertFailure])
  {
    var busy := Step(s, Submit).next;
    assert busy == s.(isSubmitting := true);
    assert busy.(isSubmitting := false) == s;
  }

  /** End to end: from an idle form, a click sends the draft, the handler
      rejects it, and the form comes back exactly as it was (draft kept,
      request dialog as it was, no success dialog opened) having raised one
      failure alert and tracked no lead. */
  lemma SubmissionRoundTrip(s: UiState, create: AccessRequestData -> CreateOutcome, pixelThrows: bool)
    requires !s.isSubmitting
    ensures Step(s, Submit).effects == [SendRequest(s.draft)]
    ensures Step(Step(s, Submit).next, Answer(Post(Parsed(DraftJson(s.draft)), create), pixelThrows)) ==
              Transition(s, [AlertFailure])
  {
    FormSubmissionFails(s.draft, create, pixelThrows);
    FailureRestores(s);
  }

  /** The handler's specialties normalisation keeps every offered industry
      unchanged, so a body that passes validation and carries one has it
      stored as chosen. (No body the form itself posts passes validation:
      FormSubmissionAlwaysRejected.) */
  lemma OfferedIndustryKept(data: Json, i: int)
    requires 0 <= i < |Industries|
    requires Valid(data) && Get(data, "specialties") == Some(StrArray([Industries[i]]))
    ensures NormalizeSpecialties(Some(StrArray([Industries[i]]))) == Some([Industries[i]])
    ensures BuildRecord(data).Some? && BuildRecord(data).value.specialties == [Industries[i]]
  {
    var v := Industries[i];
    assert v != "" && IsTrimmed(v);
    SpecialtiesArrayFixedPoint([v]);
  }
}

=== FILE: seqs.dfy ===
/** Order-preserving filtering (Array.prototype.filter) and the facts the
    handler's field checks and normalisers rely on. */
module Seqs {

  /** The elements of `s` that `keep` accepts, in their original order. */
  function Filter<T(==)>(s: seq<T>, keep: T -> bool): (r: seq<T>)
    ensures |r| <= |s|
    ensures forall i :: 0 <= i < |r| ==> r[i] in s && keep(r[i])
    ensures forall i :: 0 <= i < |s| && keep(s[i]) ==> s[i] in r
  {
    if |s| == 0 then []
    else (if keep(s[0]) then [s[0]] else []) + Filter(s[1..], keep)
  }

  /** Filtering distributes over concatenation: each part keeps its place. */
  lemma {:induction false} FilterConcat<T>(a: seq<T>, b: seq<T>, keep: T -> bool)
    ensures Filter(a + b, keep) == Filter(a, keep) + Filter(b, keep)
  {
    if |a| > 0 {
      assert (a + b)[1..] == a[1..] + b;
      FilterConcat(a[1..], b, keep);
    } else {
      assert a + b == b;
    }
  }

  /** A filter that keeps everything returns its input. */
  lemma {:induction false} FilterKeepsAll<T>(s: seq<T>, keep: T -> bool)
    requires forall i :: 0 <= i < |s| ==> keep(s[i])
    ensures Filter(s, keep) == s
  {
    if |s| > 0 {
      FilterKeepsAll(s[1..], keep);
      assert [s[0]] + s[1..] == s;
    }
  }

  /** Elements that are listed in strictly increasing rank stay so after filtering. */
  lemma {:induction false} FilterKeepsOrder<T>(s: seq<T>, keep: T -> bool, rank: T -> int)
    requires forall i, j :: 0 <= i < j < |s| ==> rank(s[i]) < rank(s[j])
    ensures forall i, j :: 0 <= i < j < |Filter(s, keep)| ==> rank(Filter(s, keep)[i]) < rank(Filter(s, keep)[j])
  {
    if |s| > 0 {
      var tail := Filter(s[1..], keep);
      FilterKeepsOrder(s[1..], keep, rank);
      forall k | 0 <= k < |tail|
        ensures rank(s[0]) < rank(tail[k])
      {
        var j :| 0 <= j < |s[1..]| && s[1..][j] == tail[k];
        assert s[j + 1] == tail[k];
      }
    }
  }

  /** Position of a listed element. */
  function IndexOf<T(==)>(s: seq<T>, x: T): (i: nat)
    requires x in s
    ensures i < |s| && s[i] == x
    ensures forall j :: 0 <= j < i ==> s[j] != x
  {
    if s[0] == x then 0 else 1 + IndexOf(s[1..], x)
  }

  lemma ConcatAssociative<T>(x: seq<T>, y: seq<T>, z: seq<T>)
    ensures x + (y + z) == (x + y) + z
  {
  }
}

=== FILE: text.dfy ===
/** The JavaScript string operations the site relies on: trim, split, join,
    startsWith, ASCII lower-casing and decimal rendering of indices and numbers. */
module Text {

  /** Characters removed by String.prototype.trim: the WhiteSpace and
      LineTerminator code points of ECMA-262 (sections 12.2 and 12.3). */
  predicate IsWhitespace(c: char) {
    || c == ' ' || c == '\t' || c == '\n' || c == '\r'
    || c == '\U{000B}' || c == '\U{000C}' || c == '\U{00A0}' || c == '\U{1680}'
    || ('\U{2000}' <= c <= '\U{200A}')
    || c == '\U{2028}' || c == '\U{2029}' || c == '\U{202F}' || c == '\U{205F}'
    || c == '\U{3000}' || c == '\U{FEFF}'
  }

  predicate AllWhitespace(s: string) {
    forall i :: 0 <= i < |s| ==> IsWhitespace(s[i])
  }

  /** No whitespace at either end. */
  predicate IsTrimmed(s: string) {
    s == [] || (!IsWhitespace(s[0]) && !IsWhitespace(s[|s| - 1]))
  }

  /** How many whitespace characters `s` starts with. */
  function LeadingBlanks(s: string): (n: nat)
    ensures n <= |s|
    ensures forall i :: 0 <= i < n ==> IsWhitespace(s[i])
    ensures n == |s| || !IsWhitespace(s[n])
  {
    if |s| > 0 && IsWhitespace(s[0]) then 1 + LeadingBlanks(s[1..]) else 0
  }

  /** How many whitespace characters `s` ends with. */
  function TrailingBlanks(s: string): (n: nat)
    ensures n <= |s|
    ensures forall i :: |s| - n <= i < |s| ==> IsWhitespace(s[i])
    ensures n == |s| || !IsWhitespace(s[|s| - n - 1])
  {
    if |s| > 0 && IsWhitespace(s[|s| - 1]) then 1 + TrailingBlanks(s[..|s| - 1]) else 0
  }

  /** String.prototype.trim: the text left between the leading and the
      trailing whitespace (TrimBounds states where it sits inside `s`). */
  function Trim(s: string): (r: string)
    ensures IsTrimmed(r)
  {
    var t := s[LeadingBlanks(s)..];
    t[..|t| - TrailingBlanks(t)]
  }

  /** The trimmed text is the infix of `s` at LeadingBlanks(s), and only whitespace
      surrounds it; it is empty exactly when `s` is all whitespace. */
  lemma TrimBounds(s: string)
    ensures LeadingBlanks(s) + |Trim(s)| <= |s|
    ensures Trim(s) == s[LeadingBlanks(s)..LeadingBlanks(s) + |Trim(s)|]
    ensures AllWhitespace(s[..LeadingBlanks(s)])
    ensures AllWhitespace(s[LeadingBlanks(s) + |Trim(s)|..])
    ensures Trim(s) == [] <==> AllWhitespace(s)
  {
    TrimInfix(s);
    LeadingRunBlank(s);
    TrailingRunBlank(s);
    if Trim(s) == [] {
      var k := LeadingBlanks(s);
      assert s == s[..k] + s[k..];
    } else {
      assert !IsWhitespace(s[LeadingBlanks(s)]);
    }
  }

  lemma TrimInfix(s: string)
    ensures LeadingBlanks(s) + |Trim(s)| <= |s|
    ensures Trim(s) == s[LeadingBlanks(s)..LeadingBlanks(s) + |Trim(s)|]
  {
    var k := LeadingBlanks(s);
    var t := s[k..];
    assert Trim(s) == t[..|t| - TrailingBlanks(t)];
  }

  lemma LeadingRunBlank(s: string)
    ensures AllWhitespace(s[..LeadingBlanks(s)])
  {
    var k := LeadingBlanks(s);
    assert forall i :: 0 <= i < k ==> s[..k][i] == s[i];
  }

  lemma TrailingRunBlank(s: string)
    ensures AllWhitespace(s[LeadingBlanks(s) + |Trim(s)|..])
  {
    var k := LeadingBlanks(s);
    var t := s[k..];
    var n := TrailingBlanks(t);
    assert |Trim(s)| == |t| - n;
    var tail := s[k + |t| - n..];
    assert forall i :: 0 <= i < |tail| ==> tail[i] == t[|t| - n + i];
  }

  /** Trimming a string that is already trimmed changes nothing. */
  lemma TrimOfTrimmed(s: string)
    requires IsTrimmed(s)
    ensures Trim(s) == s
  {
  }

  /** Trimming twice is trimming once. */
  lemma TrimIdempotent(s: string)
    ensures Trim(Trim(s)) == Trim(s)
  {
    TrimOfTrimmed(Trim(s));
  }

  /** String.prototype.startsWith. */
  function StartsWith(s: string, prefix: string): (r: bool)
    ensures r <==> |prefix| <= |s| && forall i :: 0 <= i < |prefix| ==> s[i] == prefix[i]
  {
    |prefix| <= |s| && s[..|prefix|] == prefix
  }

  /** `sep` appears in `s` at position `i`. */
  predicate OccursAt(s: string, sep: string, i: int) {
    0 <= i && i + |sep| <= |s| && s[i..i + |sep|] == sep
  }

  predicate Contains(s: string, sep: string) {
    exists i :: 0 <= i <= |s| && OccursAt(s, sep, i)
  }

  /** String.prototype.split with a non-empty string separator and no limit:
      the text is cut at every leftmost, non-overlapping occurrence of `sep`.
      The first piece is always a prefix of `s`. */
  function Split(s: string, sep: string): (r: seq<string>)
    requires |sep| > 0
    ensures |r| >= 1
    ensures |r[0]| <= |s| && r[0] == s[..|r[0]|]
    decreases |s|
  {
    if |s| < |sep| then [s]
    else if s[..|sep|] == sep then [""] + Split(s[|sep|..], sep)
    else
      var rest := Split(s[1..], sep);
      [[s[0]] + rest[0]] + rest[1..]
  }

  /** Array.prototype.join on strings. */
  function Join(parts: seq<string>, sep: string): (r: string)
    ensures |parts| == 0 ==> r == ""
    ensures |parts| > 0 ==> |parts[0]| <= |r| && r[..|parts[0]|] == parts[0]
    ensures forall i, c :: 0 <= i < |parts| && c in parts[i] ==> c in r
    ensures forall c :: c in r ==> c in sep || exists i :: 0 <= i < |parts| && c in parts[i]
  {
    if |parts| == 0 then ""
    else if |parts| == 1 then parts[0]
    else parts[0] + sep + Join(parts[1..], sep)
  }

  /** Joining the pieces of a split with the same separator gives back the text. */
  lemma {:induction false} JoinSplit(s: string, sep: string)
    requires |sep| > 0
    ensures Join(Split(s, sep), sep) == s
    decreases |s|
  {
    if |s| < |sep| {
    } else if s[..|sep|] == sep {
      var p := Split(s[|sep|..], sep);
      JoinSplit(s[|sep|..], sep);
      var r := [""] + p;
      assert r[1..] == p;
      calc {
        Join(r, sep);
        "" + sep + Join(p, sep);
        sep + s[|sep|..];
        s;
      }
    } else {
      var rest := Split(s[1..], sep);
      JoinSplit(s[1..], sep);
      var head := [s[0]] + rest[0];
      var r := [head] + rest[1..];
      assert Split(s, sep) == r;
      if |rest| == 1 {
        calc {
          Join(r, sep);
          head;
          [s[0]] + Join(rest, sep);
          [s[0]] + s[1..];
          s;
        }
      } else {
        assert r[1..] == rest[1..];
        calc {
          Join(r, sep);
          head + sep + Join(rest[1..], sep);
          [s[0]] + (rest[0] + sep + Join(rest[1..], sep));
          [s[0]] + Join(rest, sep);
          [s[0]] + s[1..];
          s;
        }
      }
    }
  }

  /** No piece of a split contains the separator. */
  lemma {:induction false} SplitPiecesAvoidSeparator(s: string, sep: string)
    requires |sep| > 0
    ensures forall i :: 0 <= i < |Split(s, sep)| ==> !Contains(Split(s, sep)[i], sep)
    decreases |s|
  {
    var r := Split(s, sep);
    if |s| < |sep| {
    } else if s[..|sep|] == sep {
      SplitPiecesAvoidSeparator(s[|sep|..], sep);
      forall i | 0 <= i < |r|
        ensures !Contains(r[i], sep)
      {
        if i > 0 {
          assert r[i] == Split(s[|sep|..], sep)[i - 1];
        }
      }
    } else {
      var rest := Split(s[1..], sep);
      SplitPiecesAvoidSeparator(s[1..], sep);
      var head := [s[0]] + rest[0];
      assert head == s[..|head|];
      forall k | 0 <= k <= |head|
        ensures !OccursAt(head, sep, k)
      {
        if k > 0 && k + |sep| <= |head| {
          assert rest[0][k - 1..k - 1 + |sep|] == head[k..k + |sep|];
          assert !OccursAt(rest[0], sep, k - 1);
        }
      }
      forall i | 0 <= i < |r|
        ensures !Contains(r[i], sep)
      {
        if i > 0 {
          assert r[i] == rest[i];
        }
      }
    }
  }

  /** Cutting at a one-character separator: the pieces of `a`, then the
      pieces of `b`. */
  lemma {:induction false} SplitConcat(a: string, c: char, b: string)
    ensures Split(a + [c] + b, [c]) == Split(a, [c]) + Split(b, [c])
    decreases |a|
  {
    var s := a + [c] + b;
    if |a| == 0 {
      assert s == [c] + b;
      assert s[..1] == [c];
      assert s[1..] == b;
    } else if a[0] == c {
      assert s[..1] == [c] && a[..1] == [c];
      assert s[1..] == a[1..] + [c] + b;
      SplitConcat(a[1..], c, b);
    } else {
      assert s[..1] != [c] by { assert s[..1][0] == a[0]; }
      assert a[..1] != [c] by { assert a[..1][0] == a[0]; }
      assert s[1..] == a[1..] + [c] + b;
      SplitConcat(a[1..], c, b);
      var rest := Split(a[1..], [c]);
      assert Split(s[1..], [c]) == rest + Split(b, [c]);
      assert (rest + Split(b, [c]))[1..] == rest[1..] + Split(b, [c]);
    }
  }

  /** A text without the separator is its own only piece. */
  lemma {:induction false} SplitWithoutSeparator(s: string, sep: string)
    requires |sep| > 0 && !Contains(s, sep)
    ensures Split(s, sep) == [s]
    decreases |s|
  {
    if |s| >= |sep| {
      assert !OccursAt(s, sep, 0);
      forall k | 0 <= k <= |s[1..]|
        ensures !OccursAt(s[1..], sep, k)
      {
        if k + |sep| <= |s[1..]| {
          assert s[1..][k..k + |sep|] == s[k + 1..k + 1 + |sep|];
          assert !OccursAt(s, sep, k + 1);
        }
      }
      SplitWithoutSeparator(s[1..], sep);
      assert [s[0]] + s[1..] == s;
    }
  }

  /** A text without the character has no occurrence of it as a separator. */
  lemma NoCharNoOccurrence(s: string, c: char)
    requires c !in s
    ensures !Contains(s, [c])
  {
    forall k | 0 <= k <= |s|
      ensures !OccursAt(s, [c], k)
    {
      if k + 1 <= |s| {
        assert s[k..k + 1][0] == s[k];
      }
    }
  }

  /** Splitting on a one-character separator undoes joining with it, when no
      part contains that character. */
  lemma {:induction false} SplitJoinSingle(xs: seq<string>, c: char)
    requires |xs| >= 1
    requires forall i :: 0 <= i < |xs| ==> c !in xs[i]
    ensures Split(Join(xs, [c]), [c]) == xs
  {
    if |xs| == 1 {
      NoCharNoOccurrence(xs[0], c);
      SplitWithoutSeparator(xs[0], [c]);
    } else {
      var rest := Join(xs[1..], [c]);
      assert Join(xs, [c]) == xs[0] + [c] + rest;
      SplitJoinSingle(xs[1..], c);
      SplitAfterSegment(xs[0], c, rest);
      assert [xs[0]] + xs[1..] == xs;
    }
  }

  /** A segment free of `c`, then `c`, then any text: the segment is the first piece. */
  lemma {:induction false} SplitAfterSegment(a: string, c: char, b: string)
    requires c !in a
    ensures Split(a + [c] + b, [c]) == [a] + Split(b, [c])
    decreases |a|
  {
    var s := a + [c] + b;
    if |a| == 0 {
      assert s == [c] + b;
      assert s[..1] == [c];
      assert s[1..] == b;
    } else {
      assert s[..1] != [c] by { assert s[..1][0] == a[0]; }
      assert s[1..] == a[1..] + [c] + b;
      SplitAfterSegment(a[1..], c, b);
      assert [s[0]] + a[1..] == a;
    }
  }

  function DigitChar(d: nat): (c: char)
    requires d < 10
    ensures '0' <= c <= '9'
  {
    (48 + d) as char
  }

  predicate IsDecimal(s: string) {
    |s| >= 1 && forall i :: 0 <= i < |s| ==> '0' <= s[i] <= '9'
  }

  /** Number.prototype.toString for a non-negative integer: shortest decimal
      digits, no leading zero except for zero itself. */
  function NatToDecimal(n: nat): (r: string)
    ensures IsDecimal(r)
    ensures r[0] == '0' <==> n == 0
    ensures n == 0 ==> r == "0"
  {
    if n < 10 then [DigitChar(n)] else NatToDecimal(n / 10) + [DigitChar(n % 10)]
  }

  /** Reading a digit string back as a number. */
  function DecimalValue(s: string): nat
    requires forall i :: 0 <= i < |s| ==> '0' <= s[i] <= '9'
  {
    if |s| == 0 then 0
    else DecimalValue(s[..|s| - 1]) * 10 + (s[|s| - 1] as int - 48)
  }

  /** Rendering then reading a number gives it back, so distinct numbers render differently. */
  lemma {:induction false} DecimalRoundTrip(n: nat)
    ensures DecimalValue(NatToDecimal(n)) == n
  {
    if n >= 10 {
      DecimalRoundTrip(n / 10);
      var r := NatToDecimal(n);
      assert r[..|r| - 1] == NatToDecimal(n / 10);
    }
  }

  lemma NatToDecimalInjective(m: nat, n: nat)
    requires NatToDecimal(m) == NatToDecimal(n)
    ensures m == n
  {
    DecimalRoundTrip(m);
    DecimalRoundTrip(n);
  }

  /** Number.prototype.toString for any integer. */
  function IntToDecimal(n: int): string {
    if n < 0 then "-" + NatToDecimal(-n) else NatToDecimal(n)
  }

  function LowerChar(c: char): char {
    if 'A' <= c <= 'Z' then (c as int + 32) as char else c
  }

  /** String.prototype.toLowerCase restricted to the ASCII letters. */
  function ToLowerAscii(s: string): (r: string)
    ensures |r| == |s|
    ensures forall i :: 0 <= i < |s| ==> r[i] == LowerChar(s[i])
    ensures forall i :: 0 <= i < |s| && !('A' <= s[i] <= 'Z') ==> r[i] == s[i]
    ensures forall i :: 0 <= i < |r| ==> !('A' <= r[i] <= 'Z')
  {
    seq(|s|, i requires 0 <= i < |s| => LowerChar(s[i]))
  }
}

=== FILE: wrappers.dfy ===
/** Optional values: JavaScript's `undefined`/`null` on the one hand and a present value on the other. */
module Wrappers {

  datatype Option<+T> = None | Some(value: T) {

    /** The value when present, else the given default. */
    function GetOr(default: T): T {
      match this
      case Some(v) => v
      case None => default
    }
  }
}
